=== FILE: README.md ===
# Cloth bill calculator — a Dafny model of its core

The cloth bill calculator is a small React application for a tailoring shop.
Its screens hold a handful of pure computations, and this project models them
as immutable Dafny data and pure functions:

- **Catalogue** (`src/App.js`): reading the fabric catalogue from the CSV text
  of the sheet. The text is trimmed and split into lines. Headers and values
  lose their `"` characters, and value *i* is bound to header *i*.
- **Selection** (`src/App.js`): the cascading cloth → thickness → colour
  choice. It covers the distinct, non-empty option lists, the first catalogue
  row matching all three keys, and the resets of the downstream choices.
- **Estimate** (`src/App.js`): the cutting plan and cost figures.
  - Pieces per row is `floor(60 / width)`, and rows needed is
    `ceil(quantity / piecesPerRow)`.
  - Length is reported in inches and in metres (39 inches per metre).
  - The figures are cloth cost, stitching cost and total.
  - It also covers the quantity and price inputs, which are clamped with
    `Math.max`.
- **FabricMaster** (`src/FabricMaster.js`): editing the master rows and the
  add-new form one field at a time. Rows must have non-negative numeric fields
  and the form needs a name. The module also builds the body of the update
  and add requests.
- **History** (`src/History.js`):
  - the bill list, newest first;
  - the refusal of a bill without items;
  - the vertical layout of the PDF invoice: cursor, page breaks and item
    lines.

The supporting modules mirror the JavaScript built-ins these screens rely on:
- `Text` covers `trim`, `split` on a literal separator, and quote removal.
- `Numbers` covers `Number(string)` over decimal text, `Math.max`, and
  integer-to-string.
- `Wrappers` covers `Option`, `Result` and the `Array.isArray` test on a
  response.

JavaScript numbers appear as `Num = Finite(real) | NaN`. Lengths and money
are exact `real`s. Timestamps are `int`s.

Two facts about the code shape the estimate:
- A metre is 39 inches (`src/App.js:6`).
- Pieces per row is `floor(60 / width)` with no lower bound
  (`src/App.js:277`). A piece wider than 60 inches gives 0 pieces per row,
  and the model then requires the width to be at most 60.

A saved bill's `grand_total` is read from the bill and printed as given
(`src/History.js:269-274`).

The invoice layout has one consequence the code does not guard against.
The footer (closing rule, grand total, thank-you line) is placed below the
last item without a page-break check. With exactly 26 items the thank-you
line lands at 303 mm, below the 297 mm edge of the A4 page
(`History.FooterPastPageEdge`).

## Model

| member | source | states |
|---|---|---|
| Text.Trim | src/App.js:237 | the result is the slice of the input between leading and trailing whitespace: everything cut off is whitespace and the result neither starts nor ends with it |
| Text.TrimEmptyIffAllSpace | src/FabricMaster.js:253 | a string trims to "" exactly when every character is whitespace (the blank-name test) |
| Text.TrimIdempotent | src/App.js:237 | trimming a trimmed string changes nothing |
| Text.Find | src/App.js:237-238 | the position found is the first occurrence of the separator at or after the start, and None means it occurs nowhere |
| Text.SplitJoin | src/App.js:237-238 | joining the pieces of `split` with the separator gives back the original text |
| Text.SplitPiecesFree | src/App.js:241 | no piece produced by `split` contains the separator |
| Text.SplitCharCount | src/App.js:237 | splitting on one character yields one more piece than the number of times it occurs |
| Text.StripQuotes | src/App.js:238 | `replace(/"/g, "")` leaves no quote, keeps every other character, and shortens the text by exactly the number of quotes |
| Text.StripQuotesIdentity | src/App.js:241 | text without quotes is unchanged by quote removal |
| Numbers.UnsignedDecimal | src/App.js:249-251 | text without a point is a number exactly when it is one or more digits, with their value; otherwise, split at its first point, it is a number exactly when both sides are digits and there is at least one digit, with value whole + fraction / 10^(fraction length); anything else is NaN; never negative |
| Numbers.NumberOf | src/FabricMaster.js:208 | `Number(text)`: blank text is 0; after trimming, a leading '-' negates the unsigned decimal that follows, a leading '+' is dropped, otherwise the trimmed text is read as an unsigned decimal; a negative result needs a minus sign |
| Numbers.AtLeast | src/App.js:380 | `Math.max(bound, n)` is NaN exactly when n is NaN; otherwise it is one of the two and at least both |
| Numbers.NatToString | src/History.js:248 | `String(n)` for a natural n: non-empty decimal digits that denote n, with no leading zero unless n is 0 |
| Numbers.NumberOfNat | src/App.js:380 | reading back a written natural number yields that number |
| Numbers.NumberOfInt | src/History.js:248 | reading back a written integer, negative ones included, yields that integer |
| Numbers.NumberOfDecimal | src/FabricMaster.js:208 | text such as "12.5", digits, a point and digits, reads as whole + fraction / 10^(fraction length) |
| Numbers.IntToString | src/History.js:248 | `String(i)` has a leading minus sign exactly when i is negative; the digits after it denote the magnitude of i and start with no 0 unless i is 0 |
| Catalogue.Lines | src/App.js:237 | the trimmed CSV splits into newline-free lines, one more than it has newline characters, which joined with newlines give back the trimmed text |
| Catalogue.LinesReadBack | src/App.js:237 | trimmed text that is newline-free pieces joined with newlines splits back into exactly those pieces |
| Catalogue.StripAll | src/App.js:238 | every header or value is its quote-stripped original and holds no quote |
| Catalogue.Headers | src/App.js:238 | the header line gives one name more than it has commas, none of them holding a quote |
| Catalogue.HeadersReadBack | src/App.js:236-238 | a first line `"n1","n2",…` of names free of commas and quotes gives exactly those names, in order, as the headers |
| Catalogue.Values | src/App.js:241 | a data line gives at least one value, none holding a quote |
| Catalogue.Bind | src/App.js:243 | the record has a key exactly for each header |
| Catalogue.BindPositional | src/App.js:243 | with distinct headers, header i is bound to value i, or to undefined past the last value |
| Catalogue.BindQuoteFree | src/App.js:238-243 | no key and no value of a record keeps a `"` character |
| Catalogue.BindLastWins | src/App.js:243 | a header that appears more than once is bound to the value at its last position |
| Catalogue.GetBound | src/App.js:243-251 | with distinct headers, `obj.key` is the value in the column of that header, undefined when there is no such header or the line is too short |
| Catalogue.RowReadsBack | src/App.js:236-252 | with a quoted header line of distinct names and a quoted data line, row k takes cloth name, thickness and colour from the columns of those names as they are, and length, width and stitch rate through `Number`, a missing column giving NaN |
| Catalogue.SourceRowReadsBack | src/App.js:236-252 | under the header line `cloth_name,thickness,color,req_length_in,req_width_in,stitch_rate` (quoted), a quoted line of six values becomes the row of the first three values and `Number` of the last three |
| Catalogue.LineRecord | src/App.js:240-243 | each data line becomes a quote-free record keyed by exactly the headers |
| Catalogue.Records | src/App.js:237-243 | one record per line after the header line: record k binds the headers to the values of line k+1 (the (k+1)-th newline-free piece of the trimmed text); each is quote-free and keyed by the headers |
| Catalogue.BoundRow | src/App.js:243-251 | a record binding distinct headers to values becomes the row holding the value under `cloth_name`, `thickness` and `color` as it is and `Number` of the values under `req_length_in`, `req_width_in` and `stitch_rate`, an absent column giving NaN |
| Catalogue.ParseCatalogue | src/App.js:240-251 | one catalogue row per data line, row k built from record k; as many rows as the trimmed CSV has newlines |
| Catalogue.QuotedLineReadsBack | src/App.js:241 | a line written as `"v1","v2",…` with quote-free values (the first not a lone comma) splits back into exactly those values |
| Selection.Dedup | src/App.js:260 | `[...new Set(xs)]` has no duplicates and the same members as xs |
| Selection.DedupKeepsFirstAppearanceOrder | src/App.js:260 | distinct values appear in the order of their first appearance |
| Selection.Truthy | src/App.js:260 | `filter(Boolean)` keeps exactly the defined non-empty strings and preserves distinctness |
| Selection.TruthyKeepsOrder | src/App.js:260 | `filter(Boolean)` over distinct values keeps the strings in the order of their positions |
| Selection.OptionsInFirstAppearanceOrder | src/App.js:260-262 | `[...new Set(xs)].filter(Boolean)` lists values of xs in the order in which they first appear in xs |
| Selection.ClothNames | src/App.js:260 | the cloth options are distinct, non-empty, and exactly the names some row carries |
| Selection.ThicknessOptions | src/App.js:261 | the thickness options are distinct, non-empty, and exactly the thicknesses of rows with the chosen cloth |
| Selection.ColorOptions | src/App.js:262 | the colour options are distinct, non-empty, and exactly the colours of rows with the chosen cloth and thickness |
| Selection.DropdownsInCatalogueOrder | src/App.js:260-262 | each dropdown lists its options in the order in which they first appear in its column; for the thickness and colour dropdowns that is the order of the first catalogue row of the chosen cloth (and thickness) carrying each option |
| Selection.ThicknessDropdownInRowOrder | src/App.js:261 | every thickness offered occurs in a row of the chosen cloth, and one listed earlier first occurs in an earlier such row |
| Selection.ColorDropdownInRowOrder | src/App.js:262 | every colour offered occurs in a row of the chosen cloth and thickness, and one listed earlier is selected from an earlier row |
| Selection.ThicknessColumnInRowOrder | src/App.js:261 | of two thicknesses of a cloth, one appears first in the thickness column exactly when its first row of that cloth comes first |
| Selection.ColorColumnInRowOrder | src/App.js:262 | of two colours of a cloth and thickness, one appears first in the colour column exactly when the row selected for it comes first |
| Selection.SelectedIndex | src/App.js:264-266 | the index found matches all three keys and no earlier row does; None means no row matches |
| Selection.Selected | src/App.js:264-266 | a row is selected exactly when some catalogue row matches all three keys, and it is the first such row |
| Selection.ChooseCloth | src/App.js:341-345 | choosing a cloth clears thickness and colour |
| Selection.ChooseThickness | src/App.js:353-356 | choosing a thickness keeps the cloth and clears the colour |
| Selection.ChooseColor | src/App.js:365 | choosing a colour keeps cloth and thickness |
| Selection.SelectedIffOffered | src/App.js:260-266 | with a colour chosen, a row is selected exactly when that colour is offered, and then the thickness and cloth were offered too |
| Selection.CascadeSelects | src/App.js:341-365 | when some row carries a non-empty cloth, thickness and colour, each of them is offered at its step of the cascade, and picking them in turn selects a row with exactly those values |
| Selection.ChooseClothForgetsDownstream | src/App.js:341-345 | right after choosing a cloth, the earlier thickness and colour play no part: only a row of that cloth with empty thickness and colour could be selected, and the colours offered are those for an empty thickness |
| Estimate.PiecesPerRow | src/App.js:277 | `floor(60 / width)`: the most pieces whose widths fit in 60 inches; at least 1 exactly when width ≤ 60, and 0 exactly when width > 60 |
| Estimate.Ceil | src/App.js:278 | `Math.ceil` gives the least integer not below its argument |
| Estimate.RowsNeeded | src/App.js:278 | the rows cover the quantity while one row fewer would not, and there is at least one row for a positive quantity |
| Estimate.RowsNeededIsLeast | src/App.js:278 | every row count that covers the quantity is at least the computed one |
| Estimate.RowsNeededMonotone | src/App.js:278 | a larger quantity never needs fewer rows |
| Estimate.Plan | src/App.js:277-283 | for a width that fits the roll and a positive quantity: the most pieces per row that fit in 60 inches (at least 1), the fewest rows that give the quantity (at least 1), and inches, metres, cloth cost, stitching and total following from those rows |
| Estimate.Compute | src/App.js:268-284 | without a selected row, a positive quantity and a non-negative price every figure is 0; otherwise pieces and rows are as above, inches = rows × length, metres × 39 = inches, cloth cost = metres × price, stitching = quantity × rate, total = their sum |
| Estimate.Screen | src/App.js:264-284 | the figures stay 0 unless some catalogue row matches all three keys, the quantity is positive and the price non-negative; otherwise they are the cutting plan and costs of the first matching row |
| Estimate.FiguresNonNegative | src/App.js:277-283 | with non-negative length and stitch rate every figure is non-negative |
| Estimate.MoreQuantityCostsMore | src/App.js:278-283 | ordering more pieces never lowers rows, length, cloth cost, stitching cost or total |
| Estimate.QuantityInput | src/App.js:380 | the quantity input is NaN only for non-numeric text, otherwise at least 1 and equal to the typed number when that is at least 1 |
| Estimate.PriceInput | src/App.js:389 | the price input is NaN only for non-numeric text, otherwise at least 0 and equal to the typed number when that is at least 0 |
| Estimate.InputsPassGateIffNumeric | src/App.js:276 | with a row selected, the computation runs exactly when both typed inputs are numeric |
| Estimate.TypedQuantityKept | src/App.js:380 | typing a whole number n ≥ 1 sets the quantity to n |
| FabricMaster.UpdateChange | src/FabricMaster.js:195-201 | the list keeps its length; only the row at the index differs, and in it only the edited field, which now holds the new value |
| FabricMaster.NewFabricChange | src/FabricMaster.js:244-246 | only the edited field of the form changes, and it now holds the new value |
| FabricMaster.UpdateChangeLastWins | src/FabricMaster.js:195-201 | editing the same field twice keeps only the second value |
| FabricMaster.UpdateChangeSameValue | src/FabricMaster.js:195-201 | writing back a field's current value leaves the list as it was |
| FabricMaster.FirstInvalid | src/FabricMaster.js:207-213 | None exactly when every field converts to a non-NaN number ≥ 0; otherwise the first field, in order, that does not |
| FabricMaster.Payload | src/FabricMaster.js:218-224 | the body holds the action, every field of the row unchanged except the three numeric ones, which are replaced by their numeric values |
| FabricMaster.PayloadIdempotent | src/FabricMaster.js:218-224 | normalising an already normalised body changes nothing |
| FabricMaster.UpdateRow | src/FabricMaster.js:203-225 | a row is sent exactly when all three numeric fields are non-negative numbers; otherwise the refusal names the first failing field in the order length, width, stitch rate |
| FabricMaster.NameCheck | src/FabricMaster.js:253-257 | the name is refused as required exactly when it is a string of whitespace only |
| FabricMaster.AddNewRow | src/FabricMaster.js:251-277 | the name is checked before any numeric field; the body is sent exactly when the name passes and all three numbers are non-negative |
| FabricMaster.SubmitNewFabric | src/FabricMaster.js:251-288 | a refused form is kept and no request is made; after a completed add the form is back to its default |
| FabricMaster.FreshFormRefused | src/FabricMaster.js:157-164 | the default form passes the numeric check (zero is accepted) but is refused for its empty name |
| FabricMaster.TypedWholeNumberAccepted | src/FabricMaster.js:208 | a whole number typed into a numeric field passes its check |
| FabricMaster.OnlyMinusMakesNegative | src/FabricMaster.js:208 | text without a minus sign fails the check only by not being a number |
| History.Insert | src/History.js:179 | inserting into a newest-first list keeps it newest first and adds exactly the one bill |
| History.SortNewestFirst | src/History.js:178-180 | the sorted list is a permutation of the fetched bills with non-increasing creation times |
| History.InsertKeepsTies | src/History.js:179 | the inserted bill goes before every bill with its own creation time |
| History.SortIsStable | src/History.js:179 | bills created at the same time keep their relative order |
| History.SortedUnchanged | src/History.js:179 | a list already newest first is returned unchanged |
| History.LoadBills | src/History.js:174-191 | a non-array response or a failed request gives no bills; an array gives its bills, newest first |
| History.NextLine | src/History.js:243-247 | each item line moves the cursor down 8 mm on the same page when that stays within 270 mm, and otherwise to 20 mm on the next page |
| History.QuantityText | src/History.js:248 | empty exactly when the quantity is 0; otherwise "(" + `String(quantity)` + " pcs)", whose middle reads back as the quantity; it never holds '/' |
| History.ItemText | src/History.js:249-250 | the line reads `clothName / thickness / color` followed by a space and the quantity text |
| History.ItemTextReadsBack | src/History.js:249-250 | when the names hold no '/', splitting the line on " / " gives back the cloth name, the thickness, and the colour with the quantity text |
| History.Positions | src/History.js:242-247 | every item line lies between 20 mm and 270 mm, strictly after the header and after the line before it |
| History.LayoutItems | src/History.js:242-260 | every item is printed exactly once, in array order, with its description and amount, at the positions above |
| History.PositionsFillPage | src/History.js:242-247 | while the page has room, line i sits 8 × (i + 1) mm below the starting cursor |
| History.PageBreak | src/History.js:244-247 | when the next line would pass 270 mm it opens a new page at 20 mm |
| History.PositionsStep | src/History.js:242-247 | each line's position follows from the previous one by a single cursor step |
| History.FirstPageHolds26 | src/History.js:203-247 | starting from the 60 mm header cursor, the first page holds 26 item lines at 68 … 268 mm and the 27th opens page two |
| History.Render | src/History.js:202-282 | one line per item, in order, at the positions that start from the 60 mm header cursor, each within 20–270 mm; the closing rule 10 mm below the last line (or the header cursor) on its page, the grand total 10 mm lower and the thank-you line 15 mm below that; file named after the bill number |
| History.ExportPdf | src/History.js:194-282 | missing or empty item JSON is refused before parsing; unparsable JSON is refused; otherwise the invoice is laid out as `History.Render` states, for exactly the parsed items |
| History.FooterPastPageEdge | src/History.js:262-279 | with 26 items the thank-you line is at 303 mm, past the bottom of the A4 page |
| History.MissingItemsIgnoresParser | src/History.js:195-201 | a bill without items is refused whatever its JSON would parse to |

## Left out

- Network I/O, error paths and React state are not modelled. This covers the
  CSV fetch, the update, add and list calls, loading flags, `updatingIndex` and
  `isAdding`. Responses appear only as inputs: `Fetched` for the JSON arrays,
  `posted` for whether the add request completed.
- `updateRow` never writes to the row list, so its effect is modelled only as
  the request it sends or the refusal it shows.
- Dialogs, navigation, themes, `localStorage`, the resize listener and all
  styling are presentation only.
- jsPDF drawing, `toLocaleDateString` and `toFixed(2)` are not modelled. The
  invoice model keeps the positions, texts and amounts, not the rendering.
- `JSON.parse` is a parameter of `History.ExportPdf`. Items are typed records,
  so a non-numeric `quantity` or a missing text field is not modelled. The
  quantity is a whole number: the calculator accepts a fractional quantity
  such as 2.5 (`src/App.js:380`), which `src/History.js:248` prints as
  "(2.5 pcs)", and that line is not modelled.
- IEEE-754 arithmetic is not modelled: there is no rounding, no Infinity and
  no `-0`. The figures are exact reals.
- Estimate.Compute: requires the selected row, when the computation runs, to
  have finite numbers and a width in (0, 60]. The code's Infinity rows for a
  wider piece and its NaN figures are not modelled. Pieces per row for widths
  above 60 is stated on `Estimate.PiecesPerRow` alone. A width of 0 is
  excluded too. The fabric master accepts it (`FabricMaster.FreshFormRefused`),
  and for it `src/App.js:277-278` gives Infinity pieces per row and 0 rows.
- Numbers.NumberOf: covers decimal text only (optional sign, digits, one
  optional point). Exponent, hexadecimal, `Infinity` and the other
  `Number` forms give NaN here.
- Text.Trim: whitespace is the ASCII subset (space, tab, line feed, carriage
  return, vertical tab, form feed). `trim` also removes no-break spaces,
  U+FEFF and the other Unicode spaces and line terminators; here they are
  ordinary characters.
- History.SortNewestFirst: creation times are integers. An unparsable date,
  which makes the comparator return NaN, is not modelled.

=== FILE: catalogue.dfy ===
/** The fabric catalogue as the calculator screen reads it: a CSV export of a
    spreadsheet, split into lines and fields naively and bound to the header
    row by position (src/App.js, the fetch callback). */
module Catalogue {
  import opened Wrappers
  import opened Text
  import opened Numbers

  /** One catalogue row. A text field is `None` when the CSV had no such
      column or the line ran out of values (JavaScript `undefined`). */
  datatype Cloth = Cloth(
    clothName: Option<string>,
    thickness: Option<string>,
    color: Option<string>,
    reqLength: Num,
    reqWidth: Num,
    stitchRate: Num)

  /** The object a CSV line becomes: header name to value. */
  type Record = map<string, Option<string>>

  /** Lines other than the header are split on the three characters `","`. */
  const FieldSeparator: string := "\",\""

  /** `csv.trim().split("\n")`: the newline-free pieces of the trimmed text,
      in order. */
  function Lines(csv: string): (lines: seq<string>)
    ensures |lines| == Count(Trim(csv), '\n') + 1
    ensures Join(lines, "\n") == Trim(csv)
    ensures forall i :: 0 <= i < |lines| ==> Free(lines[i], "\n")
  {
    SplitCharCount(Trim(csv), '\n');
    SplitJoin(Trim(csv), "\n");
    SplitPiecesFree(Trim(csv), "\n");
    Split(Trim(csv), "\n")
  }

  /** Text whose trimmed form is newline-free pieces joined by newlines has
      exactly those pieces as its lines, in order. */
  lemma LinesReadBack(csv: string, pieces: seq<string>)
    requires |pieces| >= 1
    requires forall i :: 0 <= i < |pieces| ==> '\n' !in pieces[i]
    requires Trim(csv) == Join(pieces, "\n")
    ensures Lines(csv) == pieces
  {
    SplitJoinedChar(pieces, '\n');
  }

  /** `parts.map(p => p.replace(/"/g, ""))` */
  function StripAll(parts: seq<string>): (r: seq<string>)
    ensures |r| == |parts|
    ensures forall i :: 0 <= i < |r| ==> r[i] == StripQuotes(parts[i]) && '"' !in r[i]
  {
    seq(|parts|, i requires 0 <= i < |parts| => StripQuotes(parts[i]))
  }

  /** Header names: the first line split on commas, quotes removed. */
  function Headers(csv: string): (hs: seq<string>)
    ensures |hs| == Count(Lines(csv)[0], ',') + 1
    ensures forall i :: 0 <= i < |hs| ==> '"' !in hs[i]
  {
    SplitCharCount(Lines(csv)[0], ',');
    StripAll(Split(Lines(csv)[0], ","))
  }

  /** Values of a data line: split on `","`, quotes removed. */
  function Values(line: string): (vs: seq<string>)
    ensures |vs| >= 1
    ensures forall i :: 0 <= i < |vs| ==> '"' !in vs[i]
  {
    StripAll(Split(line, FieldSeparator))
  }

  /** `values[i]`, which is `undefined` past the end. */
  function ValueAt(values: seq<string>, i: nat): Option<string>
  {
    if i < |values| then Some(values[i]) else None
  }

  /** `headers.forEach((h, i) => { obj[h] = values[i]; })`: later headers of
      the same name overwrite earlier ones. */
  function Bind(headers: seq<string>, values: seq<string>): (obj: Record)
    ensures forall h :: h in obj <==> h in headers
    decreases |headers|
  {
    if |headers| == 0 then map[]
    else
      var n := |headers| - 1;
      Bind(headers[..n], values)[headers[n] := ValueAt(values, n)]
  }

  /** `obj.name`: `undefined` for a key the object lacks. */
  function Get(obj: Record, name: string): Option<string>
  {
    if name in obj then obj[name] else None
  }

  /** `Number(obj.field)`: `Number(undefined)` is NaN. */
  function NumberOfField(v: Option<string>): Num
  {
    match v
    case None => NaN
    case Some(s) => NumberOf(s)
  }

  /** The catalogue row built from a record: the three names as they are,
      the three measures through `Number`. */
  function ToCloth(obj: Record): Cloth
  {
    Cloth(
      Get(obj, "cloth_name"),
      Get(obj, "thickness"),
      Get(obj, "color"),
      NumberOfField(Get(obj, "req_length_in")),
      NumberOfField(Get(obj, "req_width_in")),
      NumberOfField(Get(obj, "stitch_rate")))
  }

  predicate NoDup<T(==)>(s: seq<T>) {
    forall i, j :: 0 <= i < j < |s| ==> s[i] != s[j]
  }

  /** Position of the first occurrence of `x` in `xs`. */
  function FirstIndex<T(==)>(xs: seq<T>, x: T): (i: nat)
    requires x in xs
    ensures i < |xs| && xs[i] == x && x !in xs[..i]
  {
    if xs[0] == x then 0 else 1 + FirstIndex(xs[1..], x)
  }

  lemma FirstIndexInPrefix<T>(xs: seq<T>, n: nat, x: T)
    requires n <= |xs| && x in xs[..n]
    ensures x in xs && FirstIndex(xs, x) == FirstIndex(xs[..n], x)
  {
    var i := FirstIndex(xs[..n], x);
    assert xs[..n][..i] == xs[..i];
    assert xs[i] == x;
  }

  predicate QuoteFree(obj: Record) {
    forall h :: h in obj && obj[h].Some? ==> '"' !in h && '"' !in obj[h].value
  }

  /** The record of one data line: its values bound to the headers, no quote left anywhere. */
  function LineRecord(headers: seq<string>, line: string): (obj: Record)
    requires forall i :: 0 <= i < |headers| ==> '"' !in headers[i]
    ensures QuoteFree(obj)
    ensures forall h :: h in obj <==> h in headers
  {
    var vs := Values(line);
    BindQuoteFree(headers, vs);
    Bind(headers, vs)
  }

  /** The records of every line after the header, each bound to the headers.
      Record `k` comes from `Lines(csv)[k + 1]`, the (k+1)-th newline-free
      piece of the trimmed text (the first piece being the header line). */
  function Records(csv: string): (rs: seq<Record>)
    ensures |rs| == Count(Trim(csv), '\n')
    ensures forall i :: 0 <= i < |rs| ==> QuoteFree(rs[i])
    ensures forall i, h :: 0 <= i < |rs| ==> (h in rs[i] <==> h in Headers(csv))
    ensures forall k :: 0 <= k < |rs| ==> rs[k] == Bind(Headers(csv), Values(Lines(csv)[k + 1]))
  {
    var lines := Lines(csv);
    var data := lines[1..];
    assert forall k :: 0 <= k < |data| ==> data[k] == lines[k + 1];
    RecordsOf(Headers(csv), data)
  }

  /** The records of the data lines `data`, each bound to `headers`. */
  function RecordsOf(headers: seq<string>, data: seq<string>): (rs: seq<Record>)
    requires forall i :: 0 <= i < |headers| ==> '"' !in headers[i]
    ensures |rs| == |data|
    ensures forall i :: 0 <= i < |rs| ==> QuoteFree(rs[i])
    ensures forall i, h :: 0 <= i < |rs| ==> (h in rs[i] <==> h in headers)
    ensures forall k :: 0 <= k < |rs| ==> rs[k] == Bind(headers, Values(data[k]))
  {
    seq(|data|, i requires 0 <= i < |data| => LineRecord(headers, data[i]))
  }

  /** The catalogue: one cloth per line after the header. Row `k` comes from
      `Lines(csv)[k + 1]`, the (k+1)-th newline-free piece of the trimmed text. */
  function ParseCatalogue(csv: string): (rows: seq<Cloth>)
    ensures |rows| == Count(Trim(csv), '\n')
    ensures forall k :: 0 <= k < |rows| ==> rows[k] == ToCloth(Records(csv)[k])
  {
    var rs := Records(csv);
    seq(|rs|, i requires 0 <= i < |rs| => ToCloth(rs[i]))
  }

  lemma {:induction false} BindQuoteFree(headers: seq<string>, values: seq<string>)
    requires forall i :: 0 <= i < |headers| ==> '"' !in headers[i]
    requires forall i :: 0 <= i < |values| ==> '"' !in values[i]
    ensures QuoteFree(Bind(headers, values))
    decreases |headers|
  {
    if |headers| > 0 {
      BindQuoteFree(headers[..|headers| - 1], values);
    }
  }

  /** With distinct headers, value `i` is bound to header `i` (and a header
      past the last value is bound to `undefined`). */
  lemma {:induction false} BindPositional(headers: seq<string>, values: seq<string>, i: nat)
    requires NoDup(headers)
    requires i < |headers|
    ensures Bind(headers, values)[headers[i]] == ValueAt(values, i)
    decreases |headers|
  {
    var n := |headers| - 1;
    if i < n {
      assert headers[..n][i] == headers[i];
      BindPositional(headers[..n], values, i);
    }
  }

  /** A repeated header is bound to the value at its last position:
      `forEach` writes it again each time it comes round. */
  lemma {:induction false} BindLastWins(headers: seq<string>, values: seq<string>, i: nat)
    requires i < |headers|
    requires headers[i] !in headers[i + 1..]
    ensures Bind(headers, values)[headers[i]] == ValueAt(values, i)
    decreases |headers|
  {
    var n := |headers| - 1;
    if i < n {
      assert headers[n] == headers[i + 1..][n - i - 1];
      assert headers[..n][i] == headers[i];
      assert headers[..n][i + 1..] == headers[i + 1..n];
      assert headers[i + 1..] == headers[i + 1..n] + [headers[n]];
      BindLastWins(headers[..n], values, i);
    }
  }

  // ---------------------------------------------------------------------
  // Round trip: a line written in the quoted form of the export reads back.
  // ---------------------------------------------------------------------

  /** A data line in the export's format: every value quoted, separated by commas. */
  function QuotedLine(values: seq<string>): string
    requires |values| >= 1
  {
    "\"" + Join(values, FieldSeparator) + "\""
  }

  lemma SeparatorAt(s: string, k: int)
    ensures OccursAt(s, FieldSeparator, k) <==>
      (0 <= k && k + 3 <= |s| && s[k] == '"' && s[k + 1] == ',' && s[k + 2] == '"')
  {
    if 0 <= k && k + 3 <= |s| {
      assert s[k..k + 3] == [s[k], s[k + 1], s[k + 2]];
    }
  }

  lemma StripQuotesAppend(a: string, b: string)
    ensures StripQuotes(a + b) == StripQuotes(a) + StripQuotes(b)
  {
    if |a| > 0 {
      assert (a + b)[1..] == a[1..] + b;
      StripQuotesAppend(a[1..], b);
    } else {
      assert a + b == b;
    }
  }

  lemma StripAllCons(a: string, rest: seq<string>)
    ensures StripAll([a] + rest) == [StripQuotes(a)] + StripAll(rest)
  {
  }

  /** No separator starts inside a quote-free prefix of `s`. */
  lemma NoSeparatorInPrefix(s: string, v: string, offset: nat)
    requires offset + |v| <= |s|
    requires s[offset..offset + |v|] == v
    requires '"' !in v
    ensures forall k :: offset <= k < offset + |v| ==> !OccursAt(s, FieldSeparator, k)
  {
    forall k | offset <= k < offset + |v| ensures !OccursAt(s, FieldSeparator, k) {
      SeparatorAt(s, k);
      assert s[k] == v[k - offset];
    }
  }

  /** A quote-free value followed by a separator is split off as one piece. */
  lemma SplitAfterValue(v: string, rest: string)
    requires '"' !in v
    ensures Split(v + FieldSeparator + rest, FieldSeparator) == [v] + Split(rest, FieldSeparator)
  {
    var s := v + FieldSeparator + rest;
    assert s[0..|v|] == v;
    NoSeparatorInPrefix(s, v, 0);
    SeparatorAt(s, |v|);
    SplitAtFirst(s, FieldSeparator, |v|);
    assert s[..|v|] == v;
    assert s[|v| + 3..] == rest;
  }

  /** The last value with the closing quote reads back as that value. */
  lemma LastValueReadsBack(v: string)
    requires '"' !in v
    ensures StripAll(Split(v + "\"", FieldSeparator)) == [v]
  {
    var s := v + "\"";
    ClosedValueUnsplit(v);
    ClosedValueStrips(v);
    var r := StripAll([s]);
    assert |r| == 1 && r[0] == v;
  }

  /** A quote-free value and the closing quote hold no separator. */
  lemma ClosedValueUnsplit(v: string)
    requires '"' !in v
    ensures Split(v + "\"", FieldSeparator) == [v + "\""]
  {
    var s := v + "\"";
    assert s[0..|v|] == v;
    NoSeparatorInPrefix(s, v, 0);
    assert Free(s, FieldSeparator);
    SplitFree(s, FieldSeparator);
  }

  /** Removing the quotes from a quote-free value and the closing quote leaves the value. */
  lemma ClosedValueStrips(v: string)
    requires '"' !in v
    ensures StripQuotes(v + "\"") == v
  {
    StripQuotesAppend(v, "\"");
    StripQuotesIdentity(v);
    assert StripQuotes("\"") == "";
  }

  /** The values after the opening quote, with the closing quote: their
      pieces strip back to the values. */
  lemma {:induction false} TailReadsBack(values: seq<string>)
    requires |values| >= 1
    requires forall i :: 0 <= i < |values| ==> '"' !in values[i]
    ensures StripAll(Split(Join(values, FieldSeparator) + "\"", FieldSeparator)) == values
    decreases |values|
  {
    var v := values[0];
    if |values| == 1 {
      LastValueReadsBack(v);
    } else {
      var rest := Join(values[1..], FieldSeparator) + "\"";
      assert Join(values, FieldSeparator) + "\"" == v + FieldSeparator + rest;
      SplitAfterValue(v, rest);
      TailReadsBack(values[1..]);
      StripQuotesIdentity(v);
      StripAllCons(v, Split(rest, FieldSeparator));
      assert values == [v] + values[1..];
    }
  }

  /** No separator starts at the opening quote of a line unless its first value is a lone comma. */
  lemma NoSeparatorAtStart(values: seq<string>)
    requires |values| >= 1
    requires forall i :: 0 <= i < |values| ==> '"' !in values[i]
    requires values[0] != ","
    ensures !OccursAt(QuotedLine(values), FieldSeparator, 0)
  {
    var v := values[0];
    var line := QuotedLine(values);
    SeparatorAt(line, 0);
    if |values| == 1 {
      assert line == "\"" + v + "\"";
    } else {
      assert line == "\"" + v + FieldSeparator + Join(values[1..], FieldSeparator) + "\"";
    }
    if |v| >= 2 {
      assert line[2] == v[1];
    } else if |v| == 1 {
      assert line[1] == v[0];
      assert v == [v[0]];
    } else {
      assert line[1] == '"';
    }
  }

  /** Reading a quoted line back yields its values, unless the first value is
      a lone comma (the opening quote, that comma and the next quote then
      look like a separator). */
  lemma QuotedLineReadsBack(values: seq<string>)
    requires |values| >= 1
    requires forall i :: 0 <= i < |values| ==> '"' !in values[i]
    requires values[0] != ","
    ensures Values(QuotedLine(values)) == values
  {
    var line := QuotedLine(values);
    var tail := Join(values, FieldSeparator) + "\"";
    assert line == ['"'] + tail;
    NoSeparatorAtStart(values);
    SplitAfterLeadingChar('"', tail, FieldSeparator);
    var pieces := Split(tail, FieldSeparator);
    TailReadsBack(values);
    StripQuotesAppend(['"'], pieces[0]);
    assert StripQuotes(['"']) == "";
    StripAllCons(['"'] + pieces[0], pieces[1..]);
    StripAllCons(pieces[0], pieces[1..]);
    assert pieces == [pieces[0]] + pieces[1..];
  }

  // ---------------------------------------------------------------------
  // Round trip: a header line and a data line read back as a typed row.
  // ---------------------------------------------------------------------

  /** Each name between double quotes. */
  function Quoted(names: seq<string>): (q: seq<string>)
    ensures |q| == |names|
    ensures forall i :: 0 <= i < |q| ==> q[i] == "\"" + names[i] + "\""
  {
    seq(|names|, i requires 0 <= i < |names| => "\"" + names[i] + "\"")
  }

  /** A header line in the export's format: every name quoted, separated by commas. */
  function HeaderLine(names: seq<string>): string
    requires |names| >= 1
  {
    Join(Quoted(names), ",")
  }

  /** A name free of commas and quotes reads back from its quoted form. */
  lemma QuotedNameReadsBack(name: string)
    requires ',' !in name && '"' !in name
    ensures ',' !in "\"" + name + "\"" && StripQuotes("\"" + name + "\"") == name
  {
    StripQuotesAppend("\"" + name, "\"");
    StripQuotesAppend("\"", name);
    StripQuotesIdentity(name);
    assert StripQuotes("\"") == "";
  }

  /** Names free of commas and quotes, written as a header line, are read back
      as the headers, in order. */
  lemma HeadersReadBack(csv: string, names: seq<string>)
    requires |names| >= 1
    requires forall i :: 0 <= i < |names| ==> ',' !in names[i] && '"' !in names[i]
    requires Lines(csv)[0] == HeaderLine(names)
    ensures Headers(csv) == names
  {
    var q := Quoted(names);
    forall i | 0 <= i < |q| ensures ',' !in q[i] && StripQuotes(q[i]) == names[i] {
      QuotedNameReadsBack(names[i]);
    }
    SplitJoinedChar(q, ',');
    assert Split(Lines(csv)[0], ",") == q;
    var hs := StripAll(q);
    assert |hs| == |names| && forall i :: 0 <= i < |hs| ==> hs[i] == names[i];
  }

  /** The value in the column headed `key`, found by its position among
      distinct headers: `undefined` when there is no such column or the line
      runs out of values before it. */
  function Cell(headers: seq<string>, values: seq<string>, key: string): Option<string>
  {
    if key in headers then ValueAt(values, FirstIndex(headers, key)) else None
  }

  /** With distinct headers, a record gives each key the value in its column. */
  lemma GetBound(headers: seq<string>, values: seq<string>, key: string)
    requires NoDup(headers)
    ensures Get(Bind(headers, values), key) == Cell(headers, values, key)
  {
    if key in headers {
      BindPositional(headers, values, FirstIndex(headers, key));
    }
  }

  /** A catalogue whose header line names distinct columns and whose data
      line `k + 1` is a quoted line of values gives, as row `k`, the three
      names and the three measures found in the columns of those names. */
  lemma RowReadsBack(csv: string, names: seq<string>, k: nat, values: seq<string>)
    requires |names| >= 1 && NoDup(names)
    requires forall i :: 0 <= i < |names| ==> ',' !in names[i] && '"' !in names[i]
    requires Lines(csv)[0] == HeaderLine(names)
    requires k < Count(Trim(csv), '\n')
    requires |values| >= 1 && values[0] != ","
    requires forall i :: 0 <= i < |values| ==> '"' !in values[i]
    requires Lines(csv)[k + 1] == QuotedLine(values)
    ensures ParseCatalogue(csv)[k] == Cloth(
      Cell(names, values, "cloth_name"),
      Cell(names, values, "thickness"),
      Cell(names, values, "color"),
      NumberOfField(Cell(names, values, "req_length_in")),
      NumberOfField(Cell(names, values, "req_width_in")),
      NumberOfField(Cell(names, values, "stitch_rate")))
  {
    HeadersReadBack(csv, names);
    QuotedLineReadsBack(values);
    assert Records(csv)[k] == Bind(names, values);
    BoundRow(names, values);
  }

  /** With distinct headers, the row built from a line takes each field from
      the column of that field's name. */
  lemma BoundRow(headers: seq<string>, values: seq<string>)
    requires NoDup(headers)
    ensures ToCloth(Bind(headers, values)) == Cloth(
      Cell(headers, values, "cloth_name"),
      Cell(headers, values, "thickness"),
      Cell(headers, values, "color"),
      NumberOfField(Cell(headers, values, "req_length_in")),
      NumberOfField(Cell(headers, values, "req_width_in")),
      NumberOfField(Cell(headers, values, "stitch_rate")))
  {
    GetBound(headers, values, "cloth_name");
    GetBound(headers, values, "thickness");
    GetBound(headers, values, "color");
    GetBound(headers, values, "req_length_in");
    GetBound(headers, values, "req_width_in");
    GetBound(headers, values, "stitch_rate");
  }

  /** The six columns the calculator reads, in the order of its row type. */
  const Columns: seq<string> :=
    ["cloth_name", "thickness", "color", "req_length_in", "req_width_in", "stitch_rate"]

  /** The six column names are distinct and hold no comma or quote. */
  lemma ColumnsWellFormed()
    ensures NoDup(Columns)
    ensures forall i :: 0 <= i < |Columns| ==> ',' !in Columns[i] && '"' !in Columns[i]
  {
    assert Columns[0][1] == 'l' && Columns[2][1] == 'o';
    assert Columns[3][4] == 'l' && Columns[4][4] == 'w';
    PlainName(Columns[0]);
    PlainName(Columns[1]);
    PlainName(Columns[2]);
    PlainName(Columns[3]);
    PlainName(Columns[4]);
    PlainName(Columns[5]);
  }

  /** A name of lower-case letters and underscores holds no comma or quote. */
  lemma PlainName(name: string)
    requires forall k :: 0 <= k < |name| ==> 'a' <= name[k] <= 'z' || name[k] == '_'
    ensures ',' !in name && '"' !in name
  {
  }

  /** A catalogue headed by the six columns reads a quoted line of six
      values as the row of those values: the names as they are, the three
      measures through `Number`. */
  lemma SourceRowReadsBack(csv: string, k: nat, values: seq<string>)
    requires Lines(csv)[0] == HeaderLine(Columns)
    requires k < Count(Trim(csv), '\n')
    requires |values| == 6 && values[0] != ","
    requires forall i :: 0 <= i < |values| ==> '"' !in values[i]
    requires Lines(csv)[k + 1] == QuotedLine(values)
    ensures ParseCatalogue(csv)[k] == Cloth(
      Some(values[0]), Some(values[1]), Some(values[2]),
      NumberOf(values[3]), NumberOf(values[4]), NumberOf(values[5]))
  {
    ColumnsWellFormed();
    RowReadsBack(csv, Columns, k, values);
    ColumnCells(values);
  }

  /** Under the six columns, each column's cell is the value at its position. */
  lemma ColumnCells(values: seq<string>)
    requires |values| == 6
    ensures Cell(Columns, values, "cloth_name") == Some(values[0])
    ensures Cell(Columns, values, "thickness") == Some(values[1])
    ensures Cell(Columns, values, "color") == Some(values[2])
    ensures Cell(Columns, values, "req_length_in") == Some(values[3])
    ensures Cell(Columns, values, "req_width_in") == Some(values[4])
    ensures Cell(Columns, values, "stitch_rate") == Some(values[5])
  {
    ColumnsWellFormed();
    CellAt(Columns, values, 0);
    CellAt(Columns, values, 1);
    CellAt(Columns, values, 2);
    CellAt(Columns, values, 3);
    CellAt(Columns, values, 4);
    CellAt(Columns, values, 5);
  }

  /** With distinct headers and a value for each, header `i` has value `i` in its cell. */
  lemma CellAt(headers: seq<string>, values: seq<string>, i: nat)
    requires NoDup(headers) && i < |headers| == |values|
    ensures Cell(headers, values, headers[i]) == Some(values[i])
  {
    FirstIndexOfDistinct(headers, i);
  }

  /** In a sequence without duplicates, the first index of element `i` is `i`. */
  lemma FirstIndexOfDistinct<T>(xs: seq<T>, i: nat)
    requires NoDup(xs) && i < |xs|
    ensures FirstIndex(xs, xs[i]) == i
  {
    var j := FirstIndex(xs, xs[i]);
    assert xs[j] == xs[i];
  }
}

=== FILE: estimate.dfy ===
/** The calculator's cutting plan and cost estimate (src/App.js): how many
    pieces fit across the raw roll, how many rows are cut, how much cloth
    that takes and what it costs, plus the clamping of the two number inputs. */
module Estimate {
  import opened Wrappers
  import opened Numbers
  import opened Catalogue
  import opened Selection

  /** Width of the raw roll, in inches. */
  const RawWidthIn: real := 60.0

  /** The divisor used to turn inches into metres. */
  const InchesPerMeter: real := 39.0

  /** `Math.floor(RAW_WIDTH_IN / width)`: the most pieces of that width that fit across the roll. */
  function PiecesPerRow(width: real): (p: int)
    requires width > 0.0
    ensures p >= 0
    ensures p as real * width <= RawWidthIn < (p + 1) as real * width
    ensures p >= 1 <==> width <= RawWidthIn
    ensures p == 0 <==> width > RawWidthIn
  {
    var q := RawWidthIn / width;
    var p := q.Floor;
    FloorFits(q, p, width);
    p
  }

  /** The bounds of `PiecesPerRow`, for `q` the roll width over the piece width and `p` its floor. */
  lemma FloorFits(q: real, p: int, width: real)
    requires width > 0.0 && q == RawWidthIn / width && p == q.Floor
    ensures p >= 0
    ensures p as real * width <= RawWidthIn < (p + 1) as real * width
    ensures p >= 1 <==> width <= RawWidthIn
  {
    DivideThenScale(RawWidthIn, width);
    assert p as real <= q < (p + 1) as real;
    ScaleAtMost(p as real, q, width);
    ScaleLess(q, (p + 1) as real, width);
    if p >= 1 {
      ScaleAtMost(1.0, p as real, width);
    }
    if width <= RawWidthIn {
      ScaleCancel(1.0, (p + 1) as real, width);
    }
    if p < 0 {
      ScaleAtMost((p + 1) as real, 0.0, width);
    }
  }

  lemma ScaleLess(a: real, b: real, k: real)
    requires a < b && k > 0.0
    ensures a * k < b * k
  {
    assert (b - a) * k > 0.0;
    assert b * k - a * k == (b - a) * k;
  }

  lemma ScaleAtMost(a: real, b: real, k: real)
    requires a <= b && k >= 0.0
    ensures a * k <= b * k
  {
    assert (b - a) * k >= 0.0;
    assert b * k - a * k == (b - a) * k;
  }

  lemma ScaleCancel(a: real, b: real, k: real)
    requires k > 0.0 && a * k < b * k
    ensures a < b
  {
    if b <= a {
      ScaleAtMost(b, a, k);
    }
  }

  lemma DivideThenScale(a: real, k: real)
    requires k > 0.0
    ensures (a / k) * k == a
  {
  }

  /** `Math.ceil(x)` */
  function Ceil(x: real): (r: int)
    ensures r as real - 1.0 < x <= r as real
  {
    -((-x).Floor)
  }

  /** `Math.ceil(quantity / perRow)`: the fewest rows whose pieces cover the quantity. */
  function RowsNeeded(quantity: real, perRow: int): (r: int)
    requires perRow >= 1
    ensures r as real * perRow as real >= quantity
    ensures (r - 1) as real * perRow as real < quantity
    ensures quantity > 0.0 ==> r >= 1
  {
    CeilCovers(quantity, perRow);
    Ceil(quantity / perRow as real)
  }

  /** The arithmetic behind `RowsNeeded`: scaling the ceiling's bounds by the row size. */
  lemma CeilCovers(quantity: real, perRow: int)
    requires perRow >= 1
    ensures Ceil(quantity / perRow as real) as real * perRow as real >= quantity
    ensures (Ceil(quantity / perRow as real) - 1) as real * perRow as real < quantity
  {
    var p := perRow as real;
    var q := quantity / p;
    var r := Ceil(q);
    DivideThenScale(quantity, p);
    assert q * p == quantity;
    assert (r - 1) as real == r as real - 1.0;
    assert (r - 1) as real < q <= r as real;
    ScaleLess((r - 1) as real, q, p);
    assert (r - 1) as real * p < quantity;
    ScaleAtMost(q, r as real, p);
    assert quantity <= r as real * p;
  }

  /** No smaller number of rows covers the quantity. */
  lemma RowsNeededIsLeast(quantity: real, perRow: int, rows: int)
    requires perRow >= 1
    requires rows as real * perRow as real >= quantity
    ensures rows >= RowsNeeded(quantity, perRow)
  {
    var r := RowsNeeded(quantity, perRow);
    CancelAround((r - 1) as real, rows as real, perRow as real, quantity);
    assert r - 1 < rows;
  }

  /** A value strictly above `a * k` and at most `b * k`, for positive `k`, puts `a` below `b`. */
  lemma CancelAround(a: real, b: real, k: real, x: real)
    requires k > 0.0 && a * k < x && x <= b * k
    ensures a < b
  {
    ScaleCancel(a, b, k);
  }

  /** More pieces never need fewer rows. */
  lemma RowsNeededMonotone(q1: real, q2: real, perRow: int)
    requires perRow >= 1
    requires q1 <= q2
    ensures RowsNeeded(q1, perRow) <= RowsNeeded(q2, perRow)
  {
    RowsNeededIsLeast(q1, perRow, RowsNeeded(q2, perRow));
  }

  /** Every figure the result panel shows. */
  datatype Figures = Figures(
    piecesPerRow: int,
    rowsNeeded: int,
    rawLengthInches: real,
    rawLengthMeters: real,
    rawClothCost: real,
    stitchingCost: real,
    totalCost: real)

  /** The figures before anything is computed: all zero. */
  const Idle: Figures := Figures(0, 0, 0.0, 0.0, 0.0, 0.0, 0.0)

  /** `selected && quantity > 0 && pricePerMeter >= 0`; comparisons with NaN are false. */
  predicate Gate(selected: Option<Cloth>, quantity: Num, price: Num) {
    selected.Some?
    && quantity.Finite? && quantity.value > 0.0
    && price.Finite? && price.value >= 0.0
  }

  /** The selected row's numbers are finite and its piece width fits the roll. */
  predicate Plannable(c: Cloth) {
    c.reqWidth.Finite? && 0.0 < c.reqWidth.value <= RawWidthIn
    && c.reqLength.Finite? && c.stitchRate.Finite?
  }

  /** How the length and the costs follow from the rows: the cloth is one
      piece length per row, converted to metres and priced per metre; the
      stitching is paid per piece; the total is the sum of the two. */
  predicate CostsFollowRows(f: Figures, length: real, quantity: real, price: real, rate: real) {
    && f.rawLengthInches == f.rowsNeeded as real * length
    && f.rawLengthMeters * InchesPerMeter == f.rawLengthInches
    && f.rawClothCost == f.rawLengthMeters * price
    && f.stitchingCost == quantity * rate
    && f.totalCost == f.rawClothCost + f.stitchingCost
  }

  /** `f` is the cutting plan for pieces `width` × `length` inches: as many
      pieces side by side as fit the roll width, the fewest rows that give
      `quantity` pieces, and the costs that follow from those rows. */
  predicate Planned(f: Figures, width: real, length: real, rate: real, quantity: real, price: real) {
    && f.piecesPerRow >= 1
    && f.piecesPerRow as real * width <= RawWidthIn < (f.piecesPerRow + 1) as real * width
    && f.rowsNeeded >= 1
    && f.rowsNeeded as real * f.piecesPerRow as real >= quantity
    && (f.rowsNeeded - 1) as real * f.piecesPerRow as real < quantity
    && CostsFollowRows(f, length, quantity, price, rate)
  }

  /** The cutting plan and cost block for a piece `width` × `length` inches
      at `rate` per piece, `quantity` pieces and `price` per metre. */
  function Plan(width: real, length: real, rate: real, quantity: real, price: real): (f: Figures)
    requires 0.0 < width <= RawWidthIn && quantity > 0.0
    ensures Planned(f, width, length, rate, quantity, price)
  {
    var pieces := PiecesPerRow(width);
    var rows := RowsNeeded(quantity, pieces);
    var inches := rows as real * length;
    var meters := inches / InchesPerMeter;
    DivideThenScale(inches, InchesPerMeter);
    var cloth := meters * price;
    var stitching := quantity * rate;
    Figures(pieces, rows, inches, meters, cloth, stitching, cloth + stitching)
  }

  /** The cutting plan and cost block. */
  function Compute(selected: Option<Cloth>, quantity: Num, price: Num): (f: Figures)
    requires Gate(selected, quantity, price) ==> Plannable(selected.value)
    ensures !Gate(selected, quantity, price) ==> f == Idle
    ensures Gate(selected, quantity, price) ==>
      var c := selected.value;
      Planned(f, c.reqWidth.value, c.reqLength.value, c.stitchRate.value, quantity.value, price.value)
  {
    if Gate(selected, quantity, price) then
      var c := selected.value;
      Plan(c.reqWidth.value, c.reqLength.value, c.stitchRate.value, quantity.value, price.value)
    else
      Idle
  }

  /** The whole screen: the lookup of the chosen row followed by the estimate.
      Unless some row matches all three choices, the quantity is positive and
      the price non-negative, every figure is zero. */
  function Screen(cloths: seq<Cloth>, choice: Choice, quantity: Num, price: Num): (f: Figures)
    requires Gate(Selected(cloths, choice), quantity, price) ==> Plannable(Selected(cloths, choice).value)
    ensures (forall i :: 0 <= i < |cloths| ==> !Matches(cloths[i], choice)) ==> f == Idle
    ensures !(quantity.Finite? && quantity.value > 0.0) ==> f == Idle
    ensures !(price.Finite? && price.value >= 0.0) ==> f == Idle
    ensures f != Idle ==> exists i :: 0 <= i < |cloths| && Matches(cloths[i], choice)
    ensures Gate(Selected(cloths, choice), quantity, price) ==>
      var c := Selected(cloths, choice).value;
      Planned(f, c.reqWidth.value, c.reqLength.value, c.stitchRate.value, quantity.value, price.value)
  {
    Compute(Selected(cloths, choice), quantity, price)
  }

  /** With a non-negative piece length and stitch rate every figure is non-negative. */
  lemma FiguresNonNegative(selected: Option<Cloth>, quantity: Num, price: Num)
    requires Gate(selected, quantity, price) ==> Plannable(selected.value)
    requires selected.Some? ==> selected.value.reqLength.Finite? && selected.value.reqLength.value >= 0.0
    requires selected.Some? ==> selected.value.stitchRate.Finite? && selected.value.stitchRate.value >= 0.0
    ensures var f := Compute(selected, quantity, price);
      f.piecesPerRow >= 0 && f.rowsNeeded >= 0 && f.rawLengthInches >= 0.0 && f.rawLengthMeters >= 0.0
      && f.rawClothCost >= 0.0 && f.stitchingCost >= 0.0 && f.totalCost >= 0.0
  {
    var f := Compute(selected, quantity, price);
    if Gate(selected, quantity, price) {
      var c := selected.value;
      assert f.rawLengthInches >= 0.0;
      assert f.rawLengthMeters >= 0.0;
      assert f.rawClothCost >= 0.0;
      assert f.stitchingCost >= 0.0;
    }
  }

  /** Ordering more pieces of the same row at the same price never lowers
      the rows needed, the cloth length or any cost. */
  lemma MoreQuantityCostsMore(c: Cloth, q1: real, q2: real, price: real)
    requires Plannable(c) && c.reqLength.value >= 0.0 && c.stitchRate.value >= 0.0
    requires 0.0 < q1 <= q2 && price >= 0.0
    ensures var f1 := Compute(Some(c), Finite(q1), Finite(price));
      var f2 := Compute(Some(c), Finite(q2), Finite(price));
      f1.rowsNeeded <= f2.rowsNeeded && f1.rawLengthInches <= f2.rawLengthInches
      && f1.rawClothCost <= f2.rawClothCost && f1.stitchingCost <= f2.stitchingCost
      && f1.totalCost <= f2.totalCost
  {
    var f1 := Compute(Some(c), Finite(q1), Finite(price));
    var f2 := Compute(Some(c), Finite(q2), Finite(price));
    MoreQuantityMoreRows(c, q1, q2, price);
    FiguresGrow(f1, f2, c.reqLength.value, price, q1, q2, c.stitchRate.value);
  }

  lemma MoreQuantityMoreRows(c: Cloth, q1: real, q2: real, price: real)
    requires Plannable(c)
    requires 0.0 < q1 <= q2 && price >= 0.0
    ensures Compute(Some(c), Finite(q1), Finite(price)).rowsNeeded <= Compute(Some(c), Finite(q2), Finite(price)).rowsNeeded
  {
    var p := PiecesPerRow(c.reqWidth.value);
    assert Gate(Some(c), Finite(q1), Finite(price)) && Gate(Some(c), Finite(q2), Finite(price));
    RowsNeededMonotone(q1, q2, p);
  }

  /** Two sets of figures for the same row and price: the one with more rows
      and more pieces has at least the length and the costs of the other. */
  lemma FiguresGrow(f1: Figures, f2: Figures, length: real, price: real, q1: real, q2: real, rate: real)
    requires f1.rowsNeeded <= f2.rowsNeeded && q1 <= q2
    requires length >= 0.0 && price >= 0.0 && rate >= 0.0
    requires CostsFollowRows(f1, length, q1, price, rate)
    requires CostsFollowRows(f2, length, q2, price, rate)
    ensures f1.rawLengthInches <= f2.rawLengthInches
    ensures f1.rawClothCost <= f2.rawClothCost
    ensures f1.stitchingCost <= f2.stitchingCost
    ensures f1.totalCost <= f2.totalCost
  {
    ProductGrows(f1.rowsNeeded as real, f2.rowsNeeded as real, length, f1.rawLengthInches, f2.rawLengthInches);
    MetresMonotone(f1.rawLengthMeters, f2.rawLengthMeters, f1.rawLengthInches, f2.rawLengthInches);
    ProductGrows(f1.rawLengthMeters, f2.rawLengthMeters, price, f1.rawClothCost, f2.rawClothCost);
    ProductGrows(q1, q2, rate, f1.stitchingCost, f2.stitchingCost);
  }

  /** `a1 * k` is at most `a2 * k`, stated for the products under their own names. */
  lemma ProductGrows(a1: real, a2: real, k: real, p1: real, p2: real)
    requires a1 <= a2 && k >= 0.0 && p1 == a1 * k && p2 == a2 * k
    ensures p1 <= p2
  {
    ScaleAtMost(a1, a2, k);
  }

  /** More inches are at least as many metres. */
  lemma MetresMonotone(m1: real, m2: real, i1: real, i2: real)
    requires m1 * InchesPerMeter == i1 && m2 * InchesPerMeter == i2 && i1 <= i2
    ensures m1 <= m2
  {
    if m2 < m1 {
      ScaleLess(m2, m1, InchesPerMeter);
    }
  }

  /** The quantity input: `Math.max(1, Number(text))`. */
  function QuantityInput(text: string): (n: Num)
    ensures n.NaN? <==> NumberOf(text).NaN?
    ensures n.Finite? ==> n.value >= 1.0 && n.value >= NumberOf(text).value
    ensures n.Finite? && NumberOf(text).value >= 1.0 ==> n.value == NumberOf(text).value
  {
    AtLeast(1.0, NumberOf(text))
  }

  /** The price input: `Math.max(0, Number(text))`. */
  function PriceInput(text: string): (n: Num)
    ensures n.NaN? <==> NumberOf(text).NaN?
    ensures n.Finite? ==> n.value >= 0.0 && n.value >= NumberOf(text).value
    ensures n.Finite? && NumberOf(text).value >= 0.0 ==> n.value == NumberOf(text).value
  {
    AtLeast(0.0, NumberOf(text))
  }

  /** A value that came through the inputs passes the gate's number tests
      exactly when the typed text was a number; a typed whole number of
      pieces is taken as is. */
  lemma InputsPassGateIffNumeric(quantityText: string, priceText: string, c: Cloth)
    ensures Gate(Some(c), QuantityInput(quantityText), PriceInput(priceText)) <==>
      NumberOf(quantityText).Finite? && NumberOf(priceText).Finite?
  {
  }

  lemma TypedQuantityKept(n: nat)
    requires n >= 1
    ensures QuantityInput(NatToString(n)) == Finite(n as real)
  {
    NumberOfNat(n);
  }
}

=== FILE: fabric_master.dfy ===
/** The fabric-master screen (src/FabricMaster.js): editing rows of the
    catalogue and the add-new form field by field, validating the three
    numeric fields and the name, and building the body of the POST request. */
module FabricMaster {
  import opened Wrappers
  import opened Text
  import opened Numbers

  /** A field value: numbers come from the server, text from the inputs. */
  datatype Value = Num(n: real) | Str(s: string)

  /** A row is a JavaScript object; a key it lacks reads as `undefined`. */
  type Row = map<string, Value>

  /** The fields that must hold non-negative numbers, in the order they are checked. */
  const NumericFields: seq<string> := ["req_length_in", "req_width_in", "stitch_rate"]

  /** The add-new form when the screen opens and after a successful add. */
  const DefaultNewFabric: Row := map[
    "cloth_name" := Str(""),
    "thickness" := Str(""),
    "color" := Str(""),
    "req_length_in" := Num(0.0),
    "req_width_in" := Num(0.0),
    "stitch_rate" := Num(0.0)]

  /** Why a save or an add was refused before any request went out. */
  datatype Refusal =
    | NameRequired                    // the name is empty or only whitespace
    | NameNotText                     // `cloth_name.trim()` throws: the name is not a string
    | NotNonNegative(field: string)   // the first numeric field that failed

  /** `{ ...row, [field]: value }` */
  function SetField(row: Row, field: string, value: Value): (r: Row)
    ensures r.Keys == row.Keys + {field}
    ensures r[field] == value
    ensures forall k :: k in row && k != field ==> r[k] == row[k]
  {
    row[field := value]
  }

  /** `handleUpdateChange(index, field, value)`: a new list in which only the
      row at `index`, and in it only `field`, changed. */
  function UpdateChange(rows: seq<Row>, index: nat, field: string, value: Value): (r: seq<Row>)
    requires index < |rows|
    ensures |r| == |rows|
    ensures forall j :: 0 <= j < |r| && j != index ==> r[j] == rows[j]
    ensures r[index].Keys == rows[index].Keys + {field}
    ensures r[index][field] == value
    ensures forall k :: k in rows[index] && k != field ==> r[index][k] == rows[index][k]
  {
    rows[index := SetField(rows[index], field, value)]
  }

  /** `handleNewFabricChange(field, value)`: only `field` of the form changes. */
  function NewFabricChange(form: Row, field: string, value: Value): (r: Row)
    ensures r.Keys == form.Keys + {field}
    ensures r[field] == value
    ensures forall k :: k in form && k != field ==> r[k] == form[k]
  {
    SetField(form, field, value)
  }

  /** Typing into the same field twice keeps only the second value. */
  lemma UpdateChangeLastWins(rows: seq<Row>, index: nat, field: string, v1: Value, v2: Value)
    requires index < |rows|
    ensures UpdateChange(UpdateChange(rows, index, field, v1), index, field, v2)
      == UpdateChange(rows, index, field, v2)
  {
    var a := UpdateChange(UpdateChange(rows, index, field, v1), index, field, v2);
    var b := UpdateChange(rows, index, field, v2);
    assert a[index] == b[index];
  }

  /** Writing back the value a field already holds changes nothing. */
  lemma UpdateChangeSameValue(rows: seq<Row>, index: nat, field: string)
    requires index < |rows| && field in rows[index]
    ensures UpdateChange(rows, index, field, rows[index][field]) == rows
  {
    assert SetField(rows[index], field, rows[index][field]) == rows[index];
  }

  /** `Number(row[field])`: a number is itself, text is converted, and a
      missing field (`undefined`) is NaN. */
  function FieldNumber(row: Row, field: string): Num
  {
    if field !in row then NaN
    else match row[field]
      case Num(n) => Finite(n)
      case Str(s) => NumberOf(s)
  }

  /** The check `isNaN(Number(x)) || Number(x) < 0` does not fire. */
  predicate NonNegative(row: Row, field: string) {
    FieldNumber(row, field).Finite? && FieldNumber(row, field).value >= 0.0
  }

  /** `NumericFields[i]` is where the checking loop stops: it fails and all before it pass. */
  predicate FirstFailing(row: Row, i: nat) {
    i < |NumericFields| && !NonNegative(row, NumericFields[i])
    && forall j :: 0 <= j < i ==> NonNegative(row, NumericFields[j])
  }

  predicate AllNonNegative(row: Row) {
    forall i :: 0 <= i < |NumericFields| ==> NonNegative(row, NumericFields[i])
  }

  /** The first of `fields`, in order, whose value is not a non-negative number. */
  function FirstInvalid(row: Row, fields: seq<string>): (bad: Option<nat>)
    ensures bad.None? <==> forall i :: 0 <= i < |fields| ==> NonNegative(row, fields[i])
    ensures bad.Some? ==> bad.value < |fields| && !NonNegative(row, fields[bad.value])
    ensures bad.Some? ==> forall j :: 0 <= j < bad.value ==> NonNegative(row, fields[j])
  {
    if |fields| == 0 then None
    else if !NonNegative(row, fields[0]) then Some(0)
    else
      var rest := FirstInvalid(row, fields[1..]);
      if rest.None? then None else Some(rest.value + 1)
  }

  /** The request body: `{ action, ...row, <numeric fields>: Number(row[f]) }`.
      A key `action` already in the row wins over the given one, as the
      spread comes after it. */
  function Payload(action: string, row: Row): (p: Row)
    requires AllNonNegative(row)
    ensures forall k :: k in p <==> k in row || k == "action" || k in NumericFields
    ensures forall i :: 0 <= i < |NumericFields| ==>
      p[NumericFields[i]] == Num(FieldNumber(row, NumericFields[i]).value)
    ensures forall k :: k in row && k !in NumericFields ==> p[k] == row[k]
    ensures "action" !in row ==> p["action"] == Str(action)
  {
    var numbers := map f | f in NumericFields :: Num(FieldNumber(row, f).value);
    ActionNotNumeric();
    map["action" := Str(action)] + row + numbers
  }

  lemma ActionNotNumeric()
    ensures "action" !in NumericFields
  {
    assert NumericFields[0][0] != 'a' && NumericFields[1][0] != 'a' && NumericFields[2][0] != 'a';
  }

  /** `updateRow`: either the body of the update request, or the refusal
      shown instead of sending it. */
  function UpdateRow(row: Row): (r: Result<Row, Refusal>)
    ensures r.Ok? <==> AllNonNegative(row)
    ensures r.Ok? ==> r.value == Payload("updateCloth", row)
    ensures r.Err? ==> exists i: nat :: FirstFailing(row, i) && r.error == NotNonNegative(NumericFields[i])
  {
    match FirstInvalid(row, NumericFields)
    case Some(i) => Err(NotNonNegative(NumericFields[i]))
    case None => Ok(Payload("updateCloth", row))
  }

  /** The name check of `addNewRow`: `!newRow.cloth_name.trim()`. */
  function NameCheck(form: Row): (r: Option<Refusal>)
    ensures r == Some(NameRequired) <==>
      "cloth_name" in form && form["cloth_name"].Str? && AllSpace(form["cloth_name"].s)
    ensures r == None <==>
      "cloth_name" in form && form["cloth_name"].Str? && !AllSpace(form["cloth_name"].s)
    ensures r.Some? ==> r == Some(NameRequired) || r == Some(NameNotText)
  {
    if "cloth_name" !in form || !form["cloth_name"].Str? then Some(NameNotText)
    else
      TrimEmptyIffAllSpace(form["cloth_name"].s);
      if Trim(form["cloth_name"].s) == "" then Some(NameRequired) else None
  }

  /** `addNewRow`: the name is checked first, then the numeric fields in order. */
  function AddNewRow(form: Row): (r: Result<Row, Refusal>)
    ensures NameCheck(form).Some? ==> r == Err(NameCheck(form).value)
    ensures NameCheck(form).None? ==> (r.Ok? <==> AllNonNegative(form))
    ensures r.Ok? ==> r.value == Payload("addCloth", form)
    ensures NameCheck(form).None? && r.Err? ==>
      exists i: nat :: FirstFailing(form, i) && r.error == NotNonNegative(NumericFields[i])
  {
    match NameCheck(form)
    case Some(refusal) => Err(refusal)
    case None =>
      match FirstInvalid(form, NumericFields)
      case Some(i) => Err(NotNonNegative(NumericFields[i]))
      case None => Ok(Payload("addCloth", form))
  }

  /** The add form and the request sent after pressing "Add Fabric";
      `posted` says whether the request completed. */
  datatype Submission = Submission(form: Row, request: Option<Row>)

  function SubmitNewFabric(form: Row, posted: bool): (s: Submission)
    ensures AddNewRow(form).Err? ==> s == Submission(form, None)
    ensures AddNewRow(form).Ok? ==> s.request == Some(Payload("addCloth", form))
    ensures AddNewRow(form).Ok? && posted ==> s.form == DefaultNewFabric
    ensures !posted ==> s.form == form
  {
    match AddNewRow(form)
    case Err(_) => Submission(form, None)
    case Ok(body) => Submission(if posted then DefaultNewFabric else form, Some(body))
  }

  /** The fresh form is refused for its empty name, although its numbers,
      all zero, pass: zero counts as non-negative. */
  lemma FreshFormRefused()
    ensures AllNonNegative(DefaultNewFabric)
    ensures AddNewRow(DefaultNewFabric) == Err(NameRequired)
  {
    var f := DefaultNewFabric;
    assert "cloth_name" in f && f["cloth_name"] == Str("") && AllSpace("");
    assert NameCheck(f) == Some(NameRequired);
    FreshNumbersPass();
  }

  /** The fresh form's three numbers are zero, which passes the check. */
  lemma FreshNumbersPass()
    ensures AllNonNegative(DefaultNewFabric)
  {
    forall i | 0 <= i < |NumericFields| ensures NonNegative(DefaultNewFabric, NumericFields[i]) {
      assert NumericFields[i] in DefaultNewFabric && DefaultNewFabric[NumericFields[i]] == Num(0.0);
    }
  }

  /** A whole number typed into a numeric field passes that field's check. */
  lemma TypedWholeNumberAccepted(row: Row, field: string, n: nat)
    ensures NonNegative(SetField(row, field, Str(NatToString(n))), field)
  {
    NumberOfNat(n);
  }

  /** Text without a minus sign never fails the check for being negative:
      it fails only when it is not a number at all. */
  lemma OnlyMinusMakesNegative(row: Row, field: string)
    requires field in row && row[field].Str? && '-' !in row[field].s
    ensures NonNegative(row, field) <==> FieldNumber(row, field).Finite?
  {
  }

  /** Sending a body again changes nothing: its numeric fields are already numbers. */
  lemma PayloadIdempotent(action: string, row: Row)
    requires AllNonNegative(row)
    ensures AllNonNegative(Payload(action, row))
    ensures Payload(action, Payload(action, row)) == Payload(action, row)
  {
    PayloadKeepsNumbers(action, row);
    var p := Payload(action, row);
    var q := Payload(action, p);
    assert forall k :: k in q <==> k in p;
    forall k | k in q ensures q[k] == p[k] {
      if k !in NumericFields && k != "action" {
      } else if k == "action" && k !in NumericFields {
        if "action" !in row { assert p["action"] == Str(action); }
      }
    }
  }

  /** The request body reads back the same numbers as the row it came from. */
  lemma PayloadKeepsNumbers(action: string, row: Row)
    requires AllNonNegative(row)
    ensures forall i :: 0 <= i < |NumericFields| ==>
      FieldNumber(Payload(action, row), NumericFields[i]) == FieldNumber(row, NumericFields[i])
  {
  }
}

=== FILE: history.dfy ===
/** The bill-history screen (src/History.js): loading the saved bills newest
    first, and laying a bill out as a one- or many-page A4 invoice. */
module History {
  import opened Wrappers
  import opened Numbers
  import opened Text

  /** A saved bill. `createdAt` is the time value of `new Date(created_at)`;
      `itemsJson` is the item list as JSON text, possibly absent. */
  datatype Bill = Bill(billNo: string, createdAt: int, itemsJson: Option<string>, grandTotal: real)

  /** One line item of a bill, as the calculator saved it. */
  datatype Item = Item(clothName: string, thickness: string, color: string, quantity: int, totalCost: real)

  // ---------------------------------------------------------------- ordering

  predicate NewestFirst(bills: seq<Bill>) {
    forall i, j :: 0 <= i < j < |bills| ==> bills[i].createdAt >= bills[j].createdAt
  }

  /** The bills created at time `t`, in their order. */
  function CreatedAt(bills: seq<Bill>, t: int): (r: seq<Bill>)
    ensures |r| <= |bills|
  {
    if |bills| == 0 then []
    else (if bills[0].createdAt == t then [bills[0]] else []) + CreatedAt(bills[1..], t)
  }

  /** Places `b` before the first bill that is not newer than it. */
  function Insert(b: Bill, sorted: seq<Bill>): (r: seq<Bill>)
    requires NewestFirst(sorted)
    ensures NewestFirst(r)
    ensures multiset(r) == multiset(sorted) + multiset{b}
  {
    if |sorted| == 0 || sorted[0].createdAt <= b.createdAt then [b] + sorted
    else
      var rest := Insert(b, sorted[1..]);
      ConsMultiset(sorted);
      NoNewerThanHead(b, sorted, rest);
      ConsNewestFirst(sorted[0], rest);
      [sorted[0]] + rest
  }

  /** A non-empty sequence is its head and its tail, as a multiset too. */
  lemma ConsMultiset(s: seq<Bill>)
    requires |s| > 0
    ensures multiset(s) == multiset{s[0]} + multiset(s[1..])
  {
    assert s == [s[0]] + s[1..];
  }

  /** Every bill of the tail, and `b` when it is older, is no newer than the head. */
  lemma NoNewerThanHead(b: Bill, sorted: seq<Bill>, rest: seq<Bill>)
    requires NewestFirst(sorted) && |sorted| > 0 && sorted[0].createdAt > b.createdAt
    requires multiset(rest) == multiset(sorted[1..]) + multiset{b}
    ensures forall k :: 0 <= k < |rest| ==> rest[k].createdAt <= sorted[0].createdAt
  {
    forall k | 0 <= k < |rest| ensures rest[k].createdAt <= sorted[0].createdAt {
      assert rest[k] in multiset(rest);
      if rest[k] != b {
        assert rest[k] in multiset(sorted[1..]);
        var j :| 0 <= j < |sorted[1..]| && sorted[1..][j] == rest[k];
        assert sorted[j + 1] == rest[k];
      }
    }
  }

  /** Putting a bill no older than any of a newest-first list in front keeps it newest first. */
  lemma ConsNewestFirst(x: Bill, rest: seq<Bill>)
    requires NewestFirst(rest)
    requires forall k :: 0 <= k < |rest| ==> rest[k].createdAt <= x.createdAt
    ensures NewestFirst([x] + rest)
  {
    var s := [x] + rest;
    forall i, j | 0 <= i < j < |s| ensures s[i].createdAt >= s[j].createdAt {
      if i > 0 { assert s[i] == rest[i - 1]; }
      assert s[j] == rest[j - 1];
    }
  }

  /** `data.sort((a, b) => new Date(b.created_at) - new Date(a.created_at))`:
      newest first, a permutation of the input. */
  function SortNewestFirst(bills: seq<Bill>): (r: seq<Bill>)
    ensures NewestFirst(r)
    ensures multiset(r) == multiset(bills)
  {
    if |bills| == 0 then []
    else
      assert bills == [bills[0]] + bills[1..];
      Insert(bills[0], SortNewestFirst(bills[1..]))
  }

  lemma {:induction false} InsertKeepsTies(b: Bill, sorted: seq<Bill>, t: int)
    requires NewestFirst(sorted)
    ensures CreatedAt(Insert(b, sorted), t)
      == (if b.createdAt == t then [b] else []) + CreatedAt(sorted, t)
  {
    if |sorted| == 0 || sorted[0].createdAt <= b.createdAt {
      assert Insert(b, sorted) == [b] + sorted;
      CreatedAtCons(b, sorted, t);
    } else {
      var s0, tail := sorted[0], sorted[1..];
      assert NewestFirst(tail);
      InsertKeepsTies(b, tail, t);
      assert Insert(b, sorted) == [s0] + Insert(b, tail);
      assert sorted == [s0] + tail;
      TiesBehindOlderHead(b, s0, tail, Insert(b, tail), t);
    }
  }

  /** When `b` goes behind an older-than-it head, the bills created at `t`
      are the same with the head put back in front of both lists. */
  lemma TiesBehindOlderHead(b: Bill, s0: Bill, tail: seq<Bill>, rest: seq<Bill>, t: int)
    requires s0.createdAt > b.createdAt
    requires CreatedAt(rest, t) == (if b.createdAt == t then [b] else []) + CreatedAt(tail, t)
    ensures CreatedAt([s0] + rest, t) == (if b.createdAt == t then [b] else []) + CreatedAt([s0] + tail, t)
  {
    CreatedAtCons(s0, rest, t);
    CreatedAtCons(s0, tail, t);
    if b.createdAt == t {
      assert s0.createdAt != t;
    }
  }

  /** The bills created at `t` in a list with a given head. */
  lemma CreatedAtCons(x: Bill, rest: seq<Bill>, t: int)
    ensures CreatedAt([x] + rest, t) == (if x.createdAt == t then [x] else []) + CreatedAt(rest, t)
  {
    assert ([x] + rest)[0] == x && ([x] + rest)[1..] == rest;
  }

  /** The sort is stable: bills created at the same time keep their order. */
  lemma {:induction false} SortIsStable(bills: seq<Bill>, t: int)
    ensures CreatedAt(SortNewestFirst(bills), t) == CreatedAt(bills, t)
  {
    if |bills| > 0 {
      SortIsStable(bills[1..], t);
      InsertKeepsTies(bills[0], SortNewestFirst(bills[1..]), t);
    }
  }

  /** A list already newest first comes back unchanged. */
  lemma {:induction false} SortedUnchanged(bills: seq<Bill>)
    requires NewestFirst(bills)
    ensures SortNewestFirst(bills) == bills
  {
    if |bills| > 0 {
      assert NewestFirst(bills[1..]);
      SortedUnchanged(bills[1..]);
    }
  }

  /** The bill list after loading: the sorted array, or empty when the
      response is not an array or the request failed (`None`). */
  function LoadBills(response: Option<Fetched<Bill>>): (r: seq<Bill>)
    ensures response.None? || response.value.NotAnArray? ==> r == []
    ensures response.Some? && response.value.JsonArray? ==>
      NewestFirst(r) && multiset(r) == multiset(response.value.items)
  {
    if response.None? then [] else SortNewestFirst(response.value.ItemsOrEmpty())
  }

  // ---------------------------------------------------------------- invoice

  /** A text position: page number (0 is the first) and millimetres from the top. */
  datatype Cursor = Cursor(page: nat, y: int)

  const PageTop: int := 20        // where the header, and each added page, starts
  const PageBottom: int := 270    // an item line below this moves to a new page
  const ItemStep: int := 8        // the advance before each item line
  const A4Height: int := 297      // height of the page in millimetres

  /** Heading, rule, details, table header and rule follow each other at
      +8, +6, +10, +12 and +4 millimetres. */
  const TitleY: int := PageTop + 8
  const TitleRuleY: int := TitleY + 6
  const DetailsY: int := TitleRuleY + 10
  const TableHeaderY: int := DetailsY + 12
  const HeaderRuleY: int := TableHeaderY + 4

  /** `a` is printed before `b` in reading order. */
  predicate Before(a: Cursor, b: Cursor) {
    a.page < b.page || (a.page == b.page && a.y < b.y)
  }

  /** `y += 8; if (y > 270) { doc.addPage(); y = 20; }` */
  function NextLine(c: Cursor): (n: Cursor)
    ensures Before(c, n)
    ensures n.y <= PageBottom
    ensures n.page == c.page + 1 <==> c.y + ItemStep > PageBottom
    ensures n.page == c.page || n == Cursor(c.page + 1, PageTop)
    ensures c.y >= PageTop - ItemStep ==> PageTop <= n.y
    ensures c.y + ItemStep <= PageBottom ==> n == Cursor(c.page, c.y + ItemStep)
  {
    if c.y + ItemStep > PageBottom then Cursor(c.page + 1, PageTop) else Cursor(c.page, c.y + ItemStep)
  }

  /** `item.quantity ? \`(${item.quantity} pcs)\` : ''`: nothing for 0, otherwise
      the quantity in parentheses, readable back as the number. */
  function QuantityText(quantity: int): (s: string)
    ensures quantity == 0 <==> s == ""
    ensures quantity != 0 ==>
      |s| >= 7 && s[0] == '(' && s[|s| - 5..] == " pcs)"
      && s[1..|s| - 5] == IntToString(quantity)
      && NumberOf(s[1..|s| - 5]) == Finite(quantity as real)
    ensures '/' !in s
  {
    if quantity != 0 then
      var d := IntToString(quantity);
      NumberOfInt(quantity);
      assert '/' !in d by {
        assert forall k :: 0 <= k < |d| ==> d[k] != '/';
      }
      Parenthesised(d);
      "(" + d + " pcs)"
    else ""
  }

  /** The parts of `"(" + d + " pcs)"`. */
  lemma Parenthesised(d: string)
    ensures var s := "(" + d + " pcs)";
      |s| == |d| + 6 && s[0] == '(' && s[|s| - 5..] == " pcs)" && s[1..|s| - 5] == d
      && ('/' !in d ==> '/' !in s)
  {
    var s := "(" + d + " pcs)";
    assert s[|s| - 5..] == " pcs)";
    assert s[1..|s| - 5] == d;
    assert s == ['('] + d + [' ', 'p', 'c', 's', ')'];
  }

  /** The description of an item line: `clothName / thickness / color` and the quantity text. */
  function ItemText(item: Item): (t: string)
    ensures t == Join([item.clothName, item.thickness, item.color + " " + QuantityText(item.quantity)], " / ")
  {
    var last := item.color + " " + QuantityText(item.quantity);
    assert Join([item.color + " " + QuantityText(item.quantity)], " / ") == last;
    assert [item.thickness, last][1..] == [last];
    assert [item.clothName, item.thickness, last][1..] == [item.thickness, last];
    item.clothName + " / " + item.thickness + " / " + last
  }

  /** A piece without '/' ends at the first " / " after it. */
  lemma SplitAfterSlashFree(v: string, rest: string)
    requires '/' !in v
    ensures Split(v + " / " + rest, " / ") == [v] + Split(rest, " / ")
  {
    var s := v + " / " + rest;
    assert s[..|v|] == v && s[|v| + 3..] == rest;
    assert OccursAt(s, " / ", |v|) by { assert s[|v|..|v| + 3] == " / "; }
    forall k | 0 <= k < |v| ensures !OccursAt(s, " / ", k) {
      if k + 3 <= |s| {
        assert s[k..k + 3][1] == s[k + 1];
        if k + 1 < |v| { assert s[k + 1] == v[k + 1]; } else { assert s[k + 1] == ' '; }
      }
    }
    SplitAtFirst(s, " / ", |v|);
  }

  /** A piece without '/' does not split at " / ". */
  lemma SlashFreeWhole(c: string)
    requires '/' !in c
    ensures Split(c, " / ") == [c]
  {
    forall k | 0 <= k <= |c| - 3 ensures !OccursAt(c, " / ", k) {
      assert c[k..k + 3][1] == c[k + 1];
    }
    SplitFree(c, " / ");
  }

  /** Three pieces without '/' joined by " / " split back into those pieces. */
  lemma SplitThree(a: string, b: string, c: string)
    requires '/' !in a && '/' !in b && '/' !in c
    ensures Split(a + " / " + b + " / " + c, " / ") == [a, b, c]
  {
    var bc := b + " / " + c;
    SlashFreeWhole(c);
    SplitAfterSlashFree(b, c);
    SplitAfterSlashFree(a, bc);
    ConsThree(Split(a + " / " + bc, " / "), Split(bc, " / "), Split(c, " / "), a, b, c);
    assert a + " / " + b + " / " + c == a + " / " + bc;
  }

  /** Three pieces put in front of each other one at a time. */
  lemma ConsThree(x: seq<string>, y: seq<string>, z: seq<string>, a: string, b: string, c: string)
    requires z == [c] && y == [b] + z && x == [a] + y
    ensures x == [a, b, c]
  {
  }

  /** When the names hold no '/', splitting an item line on " / " gives back
      the cloth name, the thickness, and the colour with the quantity text. */
  lemma ItemTextReadsBack(item: Item)
    requires '/' !in item.clothName && '/' !in item.thickness && '/' !in item.color
    ensures Split(ItemText(item), " / ")
      == [item.clothName, item.thickness, item.color + " " + QuantityText(item.quantity)]
  {
    var last := item.color + " " + QuantityText(item.quantity);
    assert '/' !in last;
    assert ItemText(item) == item.clothName + " / " + item.thickness + " / " + last;
    SplitThree(item.clothName, item.thickness, last);
  }

  /** One printed item line: where it is, its description and its amount. */
  datatype Line = Line(at: Cursor, text: string, amount: real)

  datatype Layout = Layout(lines: seq<Line>, end: Cursor)

  /** Where `n` successive item lines are printed when the cursor starts at `c`. */
  function Positions(c: Cursor, n: nat): (ps: seq<Cursor>)
    requires PageTop <= c.y <= PageBottom
    ensures |ps| == n
    ensures forall i :: 0 <= i < n ==> PageTop <= ps[i].y <= PageBottom && Before(c, ps[i])
    ensures forall i, j :: 0 <= i < j < n ==> Before(ps[i], ps[j])
    decreases n
  {
    if n == 0 then []
    else
      var first := NextLine(c);
      var rest := Positions(first, n - 1);
      var ps := [first] + rest;
      assert forall i :: 0 < i < n ==> ps[i] == rest[i - 1];
      ps
  }

  /** `items.forEach(...)` starting from cursor `c`: one line per item, in order. */
  function LayoutItems(items: seq<Item>, c: Cursor): (l: Layout)
    requires PageTop <= c.y <= PageBottom
    ensures |l.lines| == |items|
    ensures forall i :: 0 <= i < |items| ==>
      l.lines[i].text == ItemText(items[i]) && l.lines[i].amount == items[i].totalCost
    ensures forall i :: 0 <= i < |items| ==> l.lines[i].at == Positions(c, |items|)[i]
    ensures forall i :: 0 <= i < |items| ==> PageTop <= l.lines[i].at.y <= PageBottom
    ensures forall i, j :: 0 <= i < j < |items| ==> Before(l.lines[i].at, l.lines[j].at)
    ensures |items| == 0 ==> l.end == c
    ensures |items| > 0 ==> l.end == l.lines[|items| - 1].at
    ensures PageTop <= l.end.y <= PageBottom
  {
    var ps := Positions(c, |items|);
    var lines := LinesAt(ps, items);
    Layout(lines, if |items| == 0 then c else ps[|items| - 1])
  }

  /** Item `i` printed at `ps[i]`. */
  function LinesAt(ps: seq<Cursor>, items: seq<Item>): (lines: seq<Line>)
    requires |ps| == |items|
    ensures |lines| == |items|
    ensures forall i :: 0 <= i < |items| ==>
      lines[i].at == ps[i] && lines[i].text == ItemText(items[i]) && lines[i].amount == items[i].totalCost
  {
    seq(|items|, i requires 0 <= i < |items| => Line(ps[i], ItemText(items[i]), items[i].totalCost))
  }

  /** While the page has room, line `i` sits `8 * (i + 1)` below the start. */
  lemma {:induction false} PositionsFillPage(c: Cursor, n: nat, i: nat)
    requires PageTop <= c.y <= PageBottom
    requires i < n && c.y + 8 * (i + 1) <= PageBottom
    ensures Positions(c, n)[i] == Cursor(c.page, c.y + 8 * (i + 1))
    decreases i
  {
    var next := NextLine(c);
    assert next == Cursor(c.page, c.y + 8);
    if i > 0 {
      PositionsFillPage(next, n - 1, i - 1);
      assert Positions(c, n)[i] == Positions(next, n - 1)[i - 1];
    }
  }

  /** Once `y + 8` passes the bottom, the next line opens a page at the top. */
  lemma PageBreak(c: Cursor, n: nat)
    requires PageTop <= c.y <= PageBottom && n > 0
    requires c.y + ItemStep > PageBottom
    ensures Positions(c, n)[0] == Cursor(c.page + 1, PageTop)
  {
  }

  /** Each line follows from the one before it by one `NextLine` step. */
  lemma {:induction false} PositionsStep(c: Cursor, n: nat, i: nat)
    requires PageTop <= c.y <= PageBottom
    requires i + 1 < n
    ensures Positions(c, n)[i + 1] == NextLine(Positions(c, n)[i])
    decreases i
  {
    var next := NextLine(c);
    var ps := Positions(c, n);
    var rest := Positions(next, n - 1);
    assert ps[i + 1] == rest[i];
    if i > 0 {
      PositionsStep(next, n - 1, i - 1);
      assert ps[i] == rest[i - 1];
    }
  }

  /** The first page holds 26 item lines, at 68, 76, ... 268 mm; the 27th opens page two. */
  lemma FirstPageHolds26(n: nat)
    ensures forall i :: 0 <= i < n && i < 26 ==>
      Positions(Cursor(0, HeaderRuleY), n)[i] == Cursor(0, HeaderRuleY + 8 * (i + 1))
    ensures n > 26 ==> Positions(Cursor(0, HeaderRuleY), n)[26] == Cursor(1, PageTop)
  {
    var c := Cursor(0, HeaderRuleY);
    forall i | 0 <= i < n && i < 26
      ensures Positions(c, n)[i] == Cursor(0, HeaderRuleY + 8 * (i + 1))
    {
      PositionsFillPage(c, n, i);
    }
    if n > 26 {
      PositionsFillPage(c, n, 25);
      PositionsStep(c, n, 25);
    }
  }

  /** The generated document, by position of each printed element. */
  datatype Invoice = Invoice(
    fileName: string,
    billNo: string,
    lines: seq<Line>,
    totalRule: Cursor,
    grandTotal: Cursor,
    grandTotalAmount: real,
    thanks: Cursor)

  /** Why no PDF was produced. */
  datatype ExportError =
    | MissingItems    // `items_json` is absent or empty: "corrupt or missing items"
    | InvalidData     // the JSON does not parse into an item list: "Invalid data format"

  /** The item lines of the invoice: one per item, in order, placed from the
      60 mm header cursor and each inside the 20–270 mm band. */
  predicate LinesLaidOut(lines: seq<Line>, items: seq<Item>) {
    && |lines| == |items|
    && (forall i :: 0 <= i < |items| ==>
          lines[i].text == ItemText(items[i]) && lines[i].amount == items[i].totalCost)
    && (forall i :: 0 <= i < |items| ==> lines[i].at == Positions(Cursor(0, HeaderRuleY), |items|)[i])
    && (forall i :: 0 <= i < |items| ==> PageTop <= lines[i].at.y <= PageBottom)
    && (forall i, j :: 0 <= i < j < |items| ==> Before(lines[i].at, lines[j].at))
  }

  /** Where the last item line is, or the header cursor when there is none. */
  function LastLine(lines: seq<Line>): Cursor {
    if |lines| == 0 then Cursor(0, HeaderRuleY) else lines[|lines| - 1].at
  }

  /** The footer: the closing rule 10 mm below the last line on its page, the
      grand total 10 mm lower, the thank-you line 15 mm below that, all after
      every item line. */
  predicate FooterFollows(inv: Invoice) {
    && inv.totalRule == Cursor(LastLine(inv.lines).page, LastLine(inv.lines).y + 10)
    && (forall i :: 0 <= i < |inv.lines| ==> Before(inv.lines[i].at, inv.totalRule))
    && inv.grandTotal == Cursor(inv.totalRule.page, inv.totalRule.y + 10)
    && inv.thanks == Cursor(inv.totalRule.page, inv.grandTotal.y + 15)
    && inv.thanks.y <= PageBottom + 35
  }

  /** Everything the invoice of `bill` with `items` shows. */
  predicate LaidOut(inv: Invoice, bill: Bill, items: seq<Item>) {
    && inv.fileName == bill.billNo + ".pdf" && inv.billNo == bill.billNo
    && inv.grandTotalAmount == bill.grandTotal
    && LinesLaidOut(inv.lines, items)
    && FooterFollows(inv)
  }

  /** The document built once the items are known. */
  function Render(bill: Bill, items: seq<Item>): (inv: Invoice)
    ensures LaidOut(inv, bill, items)
  {
    var l := LayoutItems(items, Cursor(0, HeaderRuleY));
    HeaderLines(items);
    HeaderEnd(items);
    var rule := Cursor(l.end.page, l.end.y + 10);
    var inv := Invoice(bill.billNo + ".pdf", bill.billNo, l.lines, rule,
                       Cursor(rule.page, rule.y + 10), bill.grandTotal, Cursor(rule.page, rule.y + 25));
    FooterAfterLines(inv);
    inv
  }

  /** The lines `LayoutItems` places from the header cursor are laid out as
      the invoice needs. */
  lemma HeaderLines(items: seq<Item>)
    ensures LinesLaidOut(LayoutItems(items, Cursor(0, HeaderRuleY)).lines, items)
  {
  }

  /** The layout's end cursor is the last line's position. */
  lemma HeaderEnd(items: seq<Item>)
    ensures var l := LayoutItems(items, Cursor(0, HeaderRuleY)); LastLine(l.lines) == l.end
  {
    var l := LayoutItems(items, Cursor(0, HeaderRuleY));
    if |items| == 0 {
      assert l.lines == [];
    } else {
      assert l.end == l.lines[|l.lines| - 1].at;
    }
  }

  lemma FooterAfterLines(inv: Invoice)
    requires forall i :: 0 <= i < |inv.lines| ==> PageTop <= inv.lines[i].at.y <= PageBottom
    requires forall i, j :: 0 <= i < j < |inv.lines| ==> Before(inv.lines[i].at, inv.lines[j].at)
    requires inv.totalRule == Cursor(LastLine(inv.lines).page, LastLine(inv.lines).y + 10)
    requires inv.grandTotal == Cursor(inv.totalRule.page, inv.totalRule.y + 10)
    requires inv.thanks == Cursor(inv.totalRule.page, inv.totalRule.y + 25)
    ensures FooterFollows(inv)
  {
    var n := |inv.lines|;
    forall i | 0 <= i < n ensures Before(inv.lines[i].at, inv.totalRule) {
      if i < n - 1 {
        assert Before(inv.lines[i].at, inv.lines[n - 1].at);
      }
    }
    if n > 0 {
      assert PageTop <= inv.lines[n - 1].at.y <= PageBottom;
    }
  }

  /** `exportPDF(bill)`. `parse` stands for `JSON.parse` followed by reading
      the item list; `None` is any exception it raises. */
  function ExportPdf(bill: Bill, parse: string -> Option<seq<Item>>): (r: Result<Invoice, ExportError>)
    ensures r == Err(MissingItems) <==> bill.itemsJson.None? || bill.itemsJson.value == ""
    ensures r == Err(InvalidData) <==>
      bill.itemsJson.Some? && bill.itemsJson.value != "" && parse(bill.itemsJson.value).None?
    ensures r.Ok? ==> LaidOut(r.value, bill, parse(bill.itemsJson.value).value)
  {
    if bill.itemsJson.None? || bill.itemsJson.value == "" then Err(MissingItems)
    else match parse(bill.itemsJson.value)
      case None => Err(InvalidData)
      case Some(items) => Ok(Render(bill, items))
  }

  /** The footer is never moved to a new page: with 26 items the last one
      sits at 268 mm and "Thank you for your business!" at 303 mm, below
      the bottom edge of the 297 mm page. */
  lemma FooterPastPageEdge(bill: Bill, parse: string -> Option<seq<Item>>)
    requires bill.itemsJson.Some? && bill.itemsJson.value != ""
    requires parse(bill.itemsJson.value).Some? && |parse(bill.itemsJson.value).value| == 26
    ensures ExportPdf(bill, parse).Ok?
    ensures ExportPdf(bill, parse).value.thanks == Cursor(0, 303)
    ensures ExportPdf(bill, parse).value.thanks.y > A4Height
  {
    FirstPageHolds26(26);
  }

  /** A bill without items is refused before its JSON is looked at. */
  lemma MissingItemsIgnoresParser(bill: Bill, p: string -> Option<seq<Item>>, q: string -> Option<seq<Item>>)
    requires bill.itemsJson.None? || bill.itemsJson.value == ""
    ensures ExportPdf(bill, p) == ExportPdf(bill, q) == Err(MissingItems)
  {
  }
}

=== FILE: numbers.dfy ===
/** JavaScript numbers as the application uses them: the `Number(text)`
    conversion, `isNaN`, `Math.max` with a literal bound, and decimal
    rendering of integers. */
module Numbers {
  import opened Wrappers
  import opened Text

  /** A JavaScript number: a finite value, or NaN. Infinities are not modelled. */
  datatype Num = Finite(value: real) | NaN

  predicate IsDigit(c: char) {
    '0' <= c <= '9'
  }

  predicate AllDigits(s: string) {
    forall k :: 0 <= k < |s| ==> IsDigit(s[k])
  }

  function DigitValue(c: char): nat
    requires IsDigit(c)
  {
    c as int - '0' as int
  }

  function DigitChar(d: nat): (c: char)
    requires d < 10
    ensures IsDigit(c) && DigitValue(c) == d
  {
    ('0' as int + d) as char
  }

  /** The value of a string of decimal digits, most significant first. */
  function DigitsValue(s: string): nat
    requires AllDigits(s)
  {
    if |s| == 0 then 0 else DigitsValue(s[..|s| - 1]) * 10 + DigitValue(s[|s| - 1])
  }

  function Pow10(n: nat): (r: nat)
    ensures r >= 1
  {
    if n == 0 then 1 else 10 * Pow10(n - 1)
  }

  /** The value of a literal with digits `whole` before the point and `fraction` after it. */
  function DecimalValue(whole: string, fraction: string): (v: real)
    requires AllDigits(whole) && AllDigits(fraction)
    ensures v >= 0.0
  {
    DigitsValue(whole) as real + DigitsValue(fraction) as real / Pow10(|fraction|) as real
  }

  /** An unsigned decimal literal: digits, optionally a '.' and more digits,
      with at least one digit in all ("7", "7.", ".5", "7.25"). */
  function UnsignedDecimal(body: string): (r: Num)
    ensures r.Finite? ==> r.value >= 0.0
    ensures '.' !in body ==>
      (r.Finite? <==> |body| >= 1 && AllDigits(body))
      && (r.Finite? ==> r.value == DigitsValue(body) as real)
    ensures forall k :: 0 <= k < |body| && body[k] == '.' && '.' !in body[..k] ==>
      (r.Finite? <==> AllDigits(body[..k]) && AllDigits(body[k + 1..]) && |body| >= 2)
      && (r.Finite? ==> r.value == DecimalValue(body[..k], body[k + 1..]))
  {
    var dot := Find(body, ".", 0);
    var whole := if dot.Some? then body[..dot.value] else body;
    var fraction := if dot.Some? then body[dot.value + 1..] else "";
    FirstDot(body);
    if AllDigits(whole) && AllDigits(fraction) && |whole| + |fraction| >= 1 then
      Finite(DecimalValue(whole, fraction))
    else
      NaN
  }

  /** `s` has the one-character string `[c]` at `k` exactly when `s[k]` is `c`. */
  lemma OccursChar(s: string, c: char, k: int)
    ensures OccursAt(s, [c], k) <==> 0 <= k < |s| && s[k] == c
  {
    if 0 <= k < |s| {
      assert s[k..k + 1] == [s[k]];
    }
  }

  /** The search for "." finds the first point, or none when there is none. */
  lemma FirstDot(body: string)
    ensures '.' !in body ==> Find(body, ".", 0).None?
    ensures forall k :: 0 <= k < |body| && body[k] == '.' && '.' !in body[..k] ==>
      Find(body, ".", 0) == Some(k)
  {
    forall k | 0 <= k <= |body| ensures OccursAt(body, ".", k) <==> k < |body| && body[k] == '.' {
      OccursChar(body, '.', k);
    }
    var f := Find(body, ".", 0);
    if f.Some? {
      assert body[f.value] == '.';
      forall k | 0 <= k < |body| && body[k] == '.' && '.' !in body[..k] ensures f.value == k {
        assert forall j :: 0 <= j < k ==> body[..k][j] == body[j] && body[j] != '.';
        assert OccursAt(body, ".", k);
      }
    } else {
      forall k | 0 <= k < |body| ensures body[k] != '.' {
        OccursChar(body, '.', k);
      }
    }
  }

  /** `Number(s)` for a string `s`: surrounding whitespace is ignored, an
      empty or all-blank string is 0, an optional sign precedes an unsigned
      decimal, and anything else is NaN. */
  function NumberOf(s: string): (r: Num)
    ensures r.Finite? && r.value < 0.0 ==> '-' in s
    ensures AllSpace(s) ==> r == Finite(0.0)
    ensures var t := Trim(s);
      t != "" && t[0] == '-' ==>
        (r.Finite? <==> UnsignedDecimal(t[1..]).Finite?)
        && (r.Finite? ==> r.value == -UnsignedDecimal(t[1..]).value)
    ensures var t := Trim(s);
      t != "" && t[0] == '+' ==> r == UnsignedDecimal(t[1..])
    ensures var t := Trim(s);
      t != "" && t[0] != '-' && t[0] != '+' ==> r == UnsignedDecimal(t)
  {
    TrimEmptyIffAllSpace(s);
    var t := Trim(s);
    if t == "" then Finite(0.0)
    else if t[0] == '-' then
      var u := UnsignedDecimal(t[1..]);
      assert t[0] in s by { TrimHeadIn(s); }
      if u.Finite? then Finite(-u.value) else NaN
    else if t[0] == '+' then UnsignedDecimal(t[1..])
    else UnsignedDecimal(t)
  }

  /** The first character of a non-empty trim comes from the string. */
  lemma TrimHeadIn(s: string)
    requires Trim(s) != ""
    ensures Trim(s)[0] in s
  {
    var r := Trim(s);
    var i :| 0 <= i <= |s| - |r| && r == s[i..i + |r|] && AllSpace(s[..i]) && AllSpace(s[i + |r|..]);
    assert r[0] == s[i];
  }

  /** `Math.max(bound, n)`: NaN stays NaN, otherwise the larger value. */
  function AtLeast(bound: real, n: Num): (r: Num)
    ensures r.NaN? <==> n.NaN?
    ensures r.Finite? ==> r.value >= bound && r.value >= n.value
    ensures r.Finite? ==> r.value == bound || r.value == n.value
  {
    match n
    case NaN => NaN
    case Finite(x) => if x < bound then Finite(bound) else Finite(x)
  }

  /** Decimal digits of a natural number, as `String(n)` writes it. */
  function NatToString(n: nat): (s: string)
    ensures |s| >= 1 && AllDigits(s)
    ensures DigitsValue(s) == n
    ensures |s| > 1 ==> s[0] != '0'
  {
    if n < 10 then [DigitChar(n)]
    else
      var prefix := NatToString(n / 10);
      var s := prefix + [DigitChar(n % 10)];
      assert s[..|s| - 1] == prefix;
      assert s[0] == prefix[0];
      assert |prefix| == 1 ==> DigitValue(prefix[0]) == n / 10;
      s
  }

  /** `String(i)` for an integer `i`. */
  function IntToString(i: int): (s: string)
    ensures |s| >= 1
    ensures forall k :: 0 <= k < |s| ==> IsDigit(s[k]) || (k == 0 && s[k] == '-')
    ensures i < 0 <==> s[0] == '-'
    ensures i >= 0 ==> AllDigits(s) && DigitsValue(s) == i && (|s| > 1 ==> s[0] != '0')
    ensures i < 0 ==> |s| >= 2 && AllDigits(s[1..]) && DigitsValue(s[1..]) == -i && s[1] != '0'
  {
    if i < 0 then
      var d := NatToString(-i);
      assert ("-" + d)[1..] == d;
      assert |d| == 1 ==> DigitValue(d[0]) == -i;
      "-" + d
    else NatToString(i)
  }

  /** A non-empty run of digits is its own trim and holds no point. */
  lemma DigitsTrimmed(s: string)
    requires |s| >= 1 && AllDigits(s)
    ensures Trim(s) == s && '.' !in s
  {
    assert IsDigit(s[0]) && IsDigit(s[|s| - 1]);
    TrimOfTrimmed(s);
    forall k | 0 <= k < |s| ensures s[k] != '.' {
      assert IsDigit(s[k]);
    }
  }

  /** A non-empty run of digits reads as its value. */
  lemma NumberOfDigits(s: string)
    requires |s| >= 1 && AllDigits(s)
    ensures NumberOf(s) == Finite(DigitsValue(s) as real)
  {
    DigitsTrimmed(s);
    var u := UnsignedDecimal(s);
    assert u.Finite? && u.value == DigitsValue(s) as real;
    assert NumberOf(s) == u;
  }

  /** Reading back a decimal with a fractional part: "12.5" is 12 + 5/10. */
  lemma NumberOfDecimal(whole: string, fraction: string)
    requires |whole| >= 1 && AllDigits(whole) && AllDigits(fraction)
    ensures NumberOf(whole + "." + fraction) == Finite(DecimalValue(whole, fraction))
  {
    var s := whole + "." + fraction;
    var k := |whole|;
    assert s[..k] == whole && s[k + 1..] == fraction && s[k] == '.';
    assert '.' !in whole;
    assert IsDigit(s[0]);
    if |fraction| > 0 {
      assert s[|s| - 1] == fraction[|fraction| - 1];
      TrimOfTrimmed(s);
    } else {
      assert !IsSpace(s[|s| - 1]);
      TrimOfTrimmed(s);
    }
  }

  /** Reading back a rendered natural number gives the number. */
  lemma NumberOfNat(n: nat)
    ensures NumberOf(NatToString(n)) == Finite(n as real)
  {
    NumberOfDigits(NatToString(n));
  }

  /** Reading back a rendered negative integer gives the integer. */
  lemma NumberOfNegative(n: nat)
    ensures NumberOf("-" + NatToString(n)) == Finite(-(n as real))
  {
    var d := NatToString(n);
    NegativeTrimmed(d);
    var u := UnsignedDecimal(d);
    assert u.Finite? && u.value == n as real;
  }

  /** A minus sign before a non-empty run of digits is its own trim. */
  lemma NegativeTrimmed(d: string)
    requires |d| >= 1 && AllDigits(d)
    ensures Trim("-" + d) == "-" + d && ("-" + d)[0] == '-' && ("-" + d)[1..] == d && '.' !in d
  {
    var s := "-" + d;
    DigitsTrimmed(d);
    assert !IsSpace(s[0]) && s[|s| - 1] == d[|d| - 1];
    TrimOfTrimmed(s);
    assert s[1..] == d;
  }

  /** Reading back a rendered integer gives the integer. */
  lemma NumberOfInt(i: int)
    ensures NumberOf(IntToString(i)) == Finite(i as real)
  {
    if i < 0 {
      var n: nat := -i;
      RenderedNegative(i, n);
      NumberOfNegative(n);
      assert -(n as real) == i as real;
    } else {
      var n: nat := i;
      assert IntToString(i) == NatToString(n);
      NumberOfNat(n);
    }
  }

  /** A negative integer is rendered as a minus sign and its magnitude. */
  lemma RenderedNegative(i: int, n: nat)
    requires i < 0 && n == -i
    ensures IntToString(i) == "-" + NatToString(n)
  {
  }
}

=== FILE: selection.dfy ===
/** The calculator's cascading fabric selection (src/App.js): the option
    lists of the three dropdowns, the lookup of the selected row, and the
    resets a choice makes further down the cascade. */
module Selection {
  import opened Wrappers
  import opened Catalogue

  /** The three dropdown values; the empty string means nothing is chosen. */
  datatype Choice = Choice(clothName: string, thickness: string, color: string)

  /** The screen's state before the user picks anything. */
  const Initial: Choice := Choice("", "", "")

  /** `[...new Set(xs)]`: each value once. */
  function Dedup(xs: seq<Option<string>>): (r: seq<Option<string>>)
    ensures NoDup(r)
    ensures forall x :: x in r <==> x in xs
    decreases |xs|
  {
    if |xs| == 0 then []
    else
      var n := |xs| - 1;
      var d := Dedup(xs[..n]);
      assert xs == xs[..n] + [xs[n]];
      if xs[n] in d then d else d + [xs[n]]
  }

  /** A set iterates in insertion order: the values come out in the order of
      their first appearance. */
  lemma {:induction false} DedupKeepsFirstAppearanceOrder(xs: seq<Option<string>>)
    ensures forall i, j :: 0 <= i < j < |Dedup(xs)| ==>
      FirstIndex(xs, Dedup(xs)[i]) < FirstIndex(xs, Dedup(xs)[j])
    decreases |xs|
  {
    if |xs| > 0 {
      var n := |xs| - 1;
      var d := Dedup(xs[..n]);
      DedupKeepsFirstAppearanceOrder(xs[..n]);
      assert xs == xs[..n] + [xs[n]];
      forall i | 0 <= i < |d| ensures FirstIndex(xs, d[i]) == FirstIndex(xs[..n], d[i]) {
        FirstIndexInPrefix(xs, n, d[i]);
      }
      if xs[n] !in d {
        assert xs[n] !in xs[..n];
        assert FirstIndex(xs, xs[n]) == n;
      }
    }
  }

  /** `.filter(Boolean)` over text values: drops `undefined` and the empty string. */
  function Truthy(vals: seq<Option<string>>): (r: seq<string>)
    ensures forall s :: s in r <==> Some(s) in vals && s != ""
    ensures NoDup(vals) ==> NoDup(r)
    decreases |vals|
  {
    if |vals| == 0 then []
    else
      var rest := Truthy(vals[1..]);
      assert forall s :: Some(s) in vals <==> Some(s) == vals[0] || Some(s) in vals[1..];
      match vals[0]
      case Some(s) => if s != "" then [s] + rest else rest
      case None => rest
  }

  /** `filter(Boolean)` keeps the order: over distinct values, the kept
      strings come in the order of their positions. */
  lemma {:induction false} TruthyKeepsOrder(vals: seq<Option<string>>)
    requires NoDup(vals)
    ensures forall i, j :: 0 <= i < j < |Truthy(vals)| ==>
      FirstIndex(vals, Some(Truthy(vals)[i])) < FirstIndex(vals, Some(Truthy(vals)[j]))
    decreases |vals|
  {
    if |vals| > 0 {
      var tail := vals[1..];
      assert NoDup(tail) by {
        forall i, j | 0 <= i < j < |tail| ensures tail[i] != tail[j] {
          assert tail[i] == vals[i + 1] && tail[j] == vals[j + 1];
        }
      }
      TruthyKeepsOrder(tail);
      var rest := Truthy(tail);
      forall k | 0 <= k < |rest|
        ensures FirstIndex(vals, Some(rest[k])) == 1 + FirstIndex(tail, Some(rest[k]))
      {
        var p := FirstIndex(tail, Some(rest[k]));
        assert vals[p + 1] == Some(rest[k]);
        assert vals[0] != Some(rest[k]);
      }
      if vals[0].Some? && vals[0].value != "" {
        assert Truthy(vals) == [vals[0].value] + rest;
      } else {
        assert Truthy(vals) == rest;
      }
    }
  }

  /** Every option is a value of `xs`, and the options come in the order in
      which those values first appear in `xs`. */
  predicate InFirstAppearanceOrder(r: seq<string>, xs: seq<Option<string>>) {
    (forall i :: 0 <= i < |r| ==> Some(r[i]) in xs)
    && forall i, j :: 0 <= i < j < |r| ==> FirstIndex(xs, Some(r[i])) < FirstIndex(xs, Some(r[j]))
  }

  /** The options built as `[...new Set(xs)].filter(Boolean)` come in the
      order in which the values first appear in `xs`. */
  lemma OptionsInFirstAppearanceOrder(xs: seq<Option<string>>)
    ensures InFirstAppearanceOrder(Truthy(Dedup(xs)), xs)
  {
    var d := Dedup(xs);
    var r := Truthy(d);
    TruthyKeepsOrder(d);
    DedupKeepsFirstAppearanceOrder(xs);
    forall i, j | 0 <= i < j < |r|
      ensures FirstIndex(xs, Some(r[i])) < FirstIndex(xs, Some(r[j]))
    {
      var a, b := FirstIndex(d, Some(r[i])), FirstIndex(d, Some(r[j]));
      assert a < b && d[a] == Some(r[i]) && d[b] == Some(r[j]);
    }
  }

  /** The cloth-name column. */
  function Names(cloths: seq<Cloth>): (r: seq<Option<string>>)
    ensures |r| == |cloths|
    ensures forall i :: 0 <= i < |r| ==> r[i] == cloths[i].clothName
  {
    seq(|cloths|, i requires 0 <= i < |cloths| => cloths[i].clothName)
  }

  /** Thickness of every row of the given cloth, in catalogue order. */
  function ThicknessesOf(cloths: seq<Cloth>, name: string): (r: seq<Option<string>>)
    ensures forall t :: t in r <==>
      exists i :: 0 <= i < |cloths| && cloths[i].clothName == Some(name) && cloths[i].thickness == t
  {
    if |cloths| == 0 then []
    else
      var rest := ThicknessesOf(cloths[1..], name);
      assert forall i :: 1 <= i < |cloths| ==> cloths[i] == cloths[1..][i - 1];
      if cloths[0].clothName == Some(name) then [cloths[0].thickness] + rest else rest
  }

  /** Colour of every row of the given cloth and thickness, in catalogue order. */
  function ColorsOf(cloths: seq<Cloth>, name: string, thickness: string): (r: seq<Option<string>>)
    ensures forall c :: c in r <==>
      exists i :: 0 <= i < |cloths| && cloths[i].clothName == Some(name)
        && cloths[i].thickness == Some(thickness) && cloths[i].color == c
  {
    if |cloths| == 0 then []
    else
      var rest := ColorsOf(cloths[1..], name, thickness);
      assert forall i :: 1 <= i < |cloths| ==> cloths[i] == cloths[1..][i - 1];
      if cloths[0].clothName == Some(name) && cloths[0].thickness == Some(thickness)
      then [cloths[0].color] + rest
      else rest
  }

  /** Some row has this cloth name. */
  predicate HasName(cloths: seq<Cloth>, name: string) {
    exists i :: 0 <= i < |cloths| && cloths[i].clothName == Some(name)
  }

  /** Some row of this cloth has this thickness. */
  predicate HasThickness(cloths: seq<Cloth>, name: string, thickness: string) {
    exists i :: 0 <= i < |cloths| && cloths[i].clothName == Some(name) && cloths[i].thickness == Some(thickness)
  }

  /** Some row of this cloth and thickness has this colour. */
  predicate HasColor(cloths: seq<Cloth>, name: string, thickness: string, color: string) {
    exists i :: 0 <= i < |cloths| && Matches(cloths[i], Choice(name, thickness, color))
  }

  /** The first row of this cloth that has this thickness. */
  function FirstThicknessRow(cloths: seq<Cloth>, name: string, thickness: string): (i: nat)
    requires HasThickness(cloths, name, thickness)
    ensures i < |cloths| && cloths[i].clothName == Some(name) && cloths[i].thickness == Some(thickness)
    ensures forall j :: 0 <= j < i ==> !(cloths[j].clothName == Some(name) && cloths[j].thickness == Some(thickness))
    decreases |cloths|
  {
    if cloths[0].clothName == Some(name) && cloths[0].thickness == Some(thickness) then 0
    else
      assert HasThickness(cloths[1..], name, thickness) by {
        var i :| 0 <= i < |cloths| && cloths[i].clothName == Some(name) && cloths[i].thickness == Some(thickness);
        assert cloths[1..][i - 1] == cloths[i];
      }
      1 + FirstThicknessRow(cloths[1..], name, thickness)
  }

  /** Options of the cloth dropdown. */
  function ClothNames(cloths: seq<Cloth>): (r: seq<string>)
    ensures NoDup(r) && "" !in r
    ensures forall s :: s in r <==> s != "" && HasName(cloths, s)
  {
    var names := Names(cloths);
    assert forall s :: Some(s) in names <==> HasName(cloths, s) by {
      forall s | Some(s) in names ensures HasName(cloths, s) {
        var i :| 0 <= i < |names| && names[i] == Some(s);
      }
    }
    Truthy(Dedup(names))
  }

  /** Options of the thickness dropdown for the chosen cloth. */
  function ThicknessOptions(cloths: seq<Cloth>, name: string): (r: seq<string>)
    ensures NoDup(r) && "" !in r
    ensures forall t :: t in r <==> t != "" && HasThickness(cloths, name, t)
  {
    Truthy(Dedup(ThicknessesOf(cloths, name)))
  }

  /** Options of the colour dropdown for the chosen cloth and thickness. */
  function ColorOptions(cloths: seq<Cloth>, name: string, thickness: string): (r: seq<string>)
    ensures NoDup(r) && "" !in r
    ensures forall c :: c in r <==> c != "" && HasColor(cloths, name, thickness, c)
  {
    Truthy(Dedup(ColorsOf(cloths, name, thickness)))
  }

  /** The thickness options come in the order of the first row of the cloth
      that carries each of them. */
  predicate ThicknessesInRowOrder(r: seq<string>, cloths: seq<Cloth>, name: string) {
    (forall i :: 0 <= i < |r| ==> HasThickness(cloths, name, r[i]))
    && forall i, j :: 0 <= i < j < |r| ==>
      FirstThicknessRow(cloths, name, r[i]) < FirstThicknessRow(cloths, name, r[j])
  }

  /** The colour options come in the order of the first row of the cloth and
      thickness that carries each of them: the row the selection then picks. */
  predicate ColorsInRowOrder(r: seq<string>, cloths: seq<Cloth>, name: string, thickness: string) {
    (forall i :: 0 <= i < |r| ==> HasColor(cloths, name, thickness, r[i]))
    && forall i, j :: 0 <= i < j < |r| ==>
      FirstColorRow(cloths, name, thickness, r[i]) < FirstColorRow(cloths, name, thickness, r[j])
  }

  /** The first row of this cloth and thickness that has this colour: the
      row the selection picks for that choice. */
  function FirstColorRow(cloths: seq<Cloth>, name: string, thickness: string, color: string): (i: nat)
    requires HasColor(cloths, name, thickness, color)
    ensures SelectedIndex(cloths, Choice(name, thickness, color)) == Some(i)
    ensures FirstMatch(cloths, Choice(name, thickness, color), i)
  {
    SelectedIndex(cloths, Choice(name, thickness, color)).value
  }

  /** The thicknesses of a cloth are collected in catalogue order: one comes
      first in the column exactly when its first row comes first. */
  lemma {:induction false} ThicknessColumnInRowOrder(cloths: seq<Cloth>, name: string, t: string, u: string)
    requires HasThickness(cloths, name, t) && HasThickness(cloths, name, u)
    ensures Some(t) in ThicknessesOf(cloths, name) && Some(u) in ThicknessesOf(cloths, name)
    ensures FirstIndex(ThicknessesOf(cloths, name), Some(t)) < FirstIndex(ThicknessesOf(cloths, name), Some(u))
      <==> FirstThicknessRow(cloths, name, t) < FirstThicknessRow(cloths, name, u)
    decreases |cloths|
  {
    var xs := ThicknessesOf(cloths, name);
    var c0, rest := cloths[0], cloths[1..];
    var ys := ThicknessesOf(rest, name);
    var head := c0.clothName == Some(name);
    assert head ==> xs == [c0.thickness] + ys;
    assert !head ==> xs == ys;
    if head && c0.thickness == Some(t) {
      assert FirstIndex(xs, Some(t)) == 0 && FirstThicknessRow(cloths, name, t) == 0;
    } else if head && c0.thickness == Some(u) {
      assert FirstIndex(xs, Some(u)) == 0 && FirstThicknessRow(cloths, name, u) == 0;
    } else {
      ThicknessInRest(cloths, name, t);
      ThicknessInRest(cloths, name, u);
      ThicknessColumnInRowOrder(rest, name, t, u);
      if head {
        assert xs[1..] == ys;
      }
    }
  }

  /** A thickness not carried by the first row is carried by a later one. */
  lemma ThicknessInRest(cloths: seq<Cloth>, name: string, t: string)
    requires HasThickness(cloths, name, t)
    requires !(cloths[0].clothName == Some(name) && cloths[0].thickness == Some(t))
    ensures HasThickness(cloths[1..], name, t)
    ensures FirstThicknessRow(cloths, name, t) == 1 + FirstThicknessRow(cloths[1..], name, t)
  {
    var i :| 0 <= i < |cloths| && cloths[i].clothName == Some(name) && cloths[i].thickness == Some(t);
    assert cloths[1..][i - 1] == cloths[i];
  }

  /** The colours of a cloth and thickness are collected in catalogue order:
      one comes first in the column exactly when its first row comes first. */
  lemma {:induction false} ColorColumnInRowOrder(cloths: seq<Cloth>, name: string, thickness: string, a: string, b: string)
    requires HasColor(cloths, name, thickness, a) && HasColor(cloths, name, thickness, b)
    ensures Some(a) in ColorsOf(cloths, name, thickness) && Some(b) in ColorsOf(cloths, name, thickness)
    ensures FirstIndex(ColorsOf(cloths, name, thickness), Some(a)) < FirstIndex(ColorsOf(cloths, name, thickness), Some(b))
      <==> FirstColorRow(cloths, name, thickness, a) < FirstColorRow(cloths, name, thickness, b)
    decreases |cloths|
  {
    var xs := ColorsOf(cloths, name, thickness);
    var c0, rest := cloths[0], cloths[1..];
    var ys := ColorsOf(rest, name, thickness);
    var head := c0.clothName == Some(name) && c0.thickness == Some(thickness);
    assert head ==> xs == [c0.color] + ys;
    assert !head ==> xs == ys;
    if head && c0.color == Some(a) {
      assert FirstIndex(xs, Some(a)) == 0 && FirstColorRow(cloths, name, thickness, a) == 0;
    } else if head && c0.color == Some(b) {
      assert FirstIndex(xs, Some(b)) == 0 && FirstColorRow(cloths, name, thickness, b) == 0;
    } else {
      ColorInRest(cloths, name, thickness, a);
      ColorInRest(cloths, name, thickness, b);
      ColorColumnInRowOrder(rest, name, thickness, a, b);
      if head {
        assert xs[1..] == ys;
      }
    }
  }

  /** A colour not carried by the first row is carried by a later one. */
  lemma ColorInRest(cloths: seq<Cloth>, name: string, thickness: string, color: string)
    requires HasColor(cloths, name, thickness, color)
    requires !Matches(cloths[0], Choice(name, thickness, color))
    ensures HasColor(cloths[1..], name, thickness, color)
    ensures FirstColorRow(cloths, name, thickness, color) == 1 + FirstColorRow(cloths[1..], name, thickness, color)
  {
    var i :| 0 <= i < |cloths| && Matches(cloths[i], Choice(name, thickness, color));
    assert cloths[1..][i - 1] == cloths[i];
  }

  /** Each dropdown lists its options in catalogue order: by the first row
      that carries them. */
  lemma DropdownsInCatalogueOrder(cloths: seq<Cloth>, name: string, thickness: string)
    ensures InFirstAppearanceOrder(ClothNames(cloths), Names(cloths))
    ensures InFirstAppearanceOrder(ThicknessOptions(cloths, name), ThicknessesOf(cloths, name))
    ensures InFirstAppearanceOrder(ColorOptions(cloths, name, thickness), ColorsOf(cloths, name, thickness))
    ensures ThicknessesInRowOrder(ThicknessOptions(cloths, name), cloths, name)
    ensures ColorsInRowOrder(ColorOptions(cloths, name, thickness), cloths, name, thickness)
  {
    OptionsInFirstAppearanceOrder(Names(cloths));
    ThicknessDropdownInRowOrder(cloths, name);
    ColorDropdownInRowOrder(cloths, name, thickness);
  }

  /** The thickness dropdown follows the catalogue rows of the chosen cloth. */
  lemma ThicknessDropdownInRowOrder(cloths: seq<Cloth>, name: string)
    ensures InFirstAppearanceOrder(ThicknessOptions(cloths, name), ThicknessesOf(cloths, name))
    ensures ThicknessesInRowOrder(ThicknessOptions(cloths, name), cloths, name)
  {
    OptionsInFirstAppearanceOrder(ThicknessesOf(cloths, name));
    ThicknessesOrdered(cloths, name, ThicknessOptions(cloths, name));
  }

  /** Thicknesses in the order of their first appearance in the column are in row order. */
  lemma ThicknessesOrdered(cloths: seq<Cloth>, name: string, ts: seq<string>)
    requires InFirstAppearanceOrder(ts, ThicknessesOf(cloths, name))
    requires forall k :: 0 <= k < |ts| ==> HasThickness(cloths, name, ts[k])
    ensures ThicknessesInRowOrder(ts, cloths, name)
  {
    forall i, j | 0 <= i < j < |ts|
      ensures FirstThicknessRow(cloths, name, ts[i]) < FirstThicknessRow(cloths, name, ts[j])
    {
      ThicknessColumnInRowOrder(cloths, name, ts[i], ts[j]);
    }
  }

  /** The colour dropdown follows the catalogue rows of the chosen cloth and thickness. */
  lemma ColorDropdownInRowOrder(cloths: seq<Cloth>, name: string, thickness: string)
    ensures InFirstAppearanceOrder(ColorOptions(cloths, name, thickness), ColorsOf(cloths, name, thickness))
    ensures ColorsInRowOrder(ColorOptions(cloths, name, thickness), cloths, name, thickness)
  {
    OptionsInFirstAppearanceOrder(ColorsOf(cloths, name, thickness));
    ColorsOrdered(cloths, name, thickness, ColorOptions(cloths, name, thickness));
  }

  /** Colours in the order of their first appearance in the column are in row order. */
  lemma ColorsOrdered(cloths: seq<Cloth>, name: string, thickness: string, cs: seq<string>)
    requires InFirstAppearanceOrder(cs, ColorsOf(cloths, name, thickness))
    requires forall k :: 0 <= k < |cs| ==> HasColor(cloths, name, thickness, cs[k])
    ensures ColorsInRowOrder(cs, cloths, name, thickness)
  {
    forall i, j | 0 <= i < j < |cs|
      ensures FirstColorRow(cloths, name, thickness, cs[i]) < FirstColorRow(cloths, name, thickness, cs[j])
    {
      ColorColumnInRowOrder(cloths, name, thickness, cs[i], cs[j]);
    }
  }

  /** A row agrees with all three chosen values (`===` on each field). */
  predicate Matches(c: Cloth, choice: Choice) {
    c.clothName == Some(choice.clothName)
    && c.thickness == Some(choice.thickness)
    && c.color == Some(choice.color)
  }

  /** Row `i` matches the choice and no row before it does. */
  predicate FirstMatch(cloths: seq<Cloth>, choice: Choice, i: int) {
    0 <= i < |cloths| && Matches(cloths[i], choice)
    && forall j :: 0 <= j < i ==> !Matches(cloths[j], choice)
  }

  /** `cloths.find(...)`, by position: the first matching row. */
  function SelectedIndex(cloths: seq<Cloth>, choice: Choice): (r: Option<nat>)
    ensures r.Some? ==> r.value < |cloths| && Matches(cloths[r.value], choice)
    ensures r.Some? ==> forall j :: 0 <= j < r.value ==> !Matches(cloths[j], choice)
    ensures r.None? ==> forall j :: 0 <= j < |cloths| ==> !Matches(cloths[j], choice)
  {
    if |cloths| == 0 then None
    else if Matches(cloths[0], choice) then Some(0)
    else
      var rest := SelectedIndex(cloths[1..], choice);
      if rest.Some? then Some(rest.value + 1) else None
  }

  /** The `selected` row, or `undefined`. */
  function Selected(cloths: seq<Cloth>, choice: Choice): (r: Option<Cloth>)
    ensures r.Some? <==> exists i :: 0 <= i < |cloths| && Matches(cloths[i], choice)
    ensures r.Some? ==> r.value in cloths && Matches(r.value, choice)
    ensures r.Some? ==> exists i :: FirstMatch(cloths, choice, i) && r.value == cloths[i]
  {
    match SelectedIndex(cloths, choice)
    case None => None
    case Some(i) => Some(cloths[i])
  }

  /** Picking a cloth: the thickness and colour are cleared. */
  function ChooseCloth(choice: Choice, name: string): (r: Choice)
    ensures r.clothName == name && r.thickness == "" && r.color == ""
  {
    Choice(name, "", "")
  }

  /** Picking a thickness: the cloth stays and the colour is cleared. */
  function ChooseThickness(choice: Choice, thickness: string): (r: Choice)
    ensures r.clothName == choice.clothName && r.thickness == thickness && r.color == ""
  {
    Choice(choice.clothName, thickness, "")
  }

  /** Picking a colour: the other two stay. */
  function ChooseColor(choice: Choice, color: string): (r: Choice)
    ensures r.clothName == choice.clothName && r.thickness == choice.thickness && r.color == color
  {
    choice.(color := color)
  }

  /** A complete choice finds a row exactly when its colour is among the
      colour options offered for its cloth and thickness; those options then
      come from a thickness and a cloth that were offered too. */
  lemma SelectedIffOffered(cloths: seq<Cloth>, choice: Choice)
    requires choice.color != ""
    ensures Selected(cloths, choice).Some? <==>
      choice.color in ColorOptions(cloths, choice.clothName, choice.thickness)
    ensures Selected(cloths, choice).Some? && choice.thickness != "" ==>
      choice.thickness in ThicknessOptions(cloths, choice.clothName)
    ensures Selected(cloths, choice).Some? && choice.clothName != "" ==>
      choice.clothName in ClothNames(cloths)
  {
    var opts := ColorOptions(cloths, choice.clothName, choice.thickness);
    if choice.color in opts {
      var i :| 0 <= i < |cloths| && Matches(cloths[i], Choice(choice.clothName, choice.thickness, choice.color));
      assert Matches(cloths[i], choice);
    }
    if Selected(cloths, choice).Some? {
      var i :| 0 <= i < |cloths| && Matches(cloths[i], choice);
      assert choice == Choice(choice.clothName, choice.thickness, choice.color);
      assert HasThickness(cloths, choice.clothName, choice.thickness);
      assert HasName(cloths, choice.clothName);
    }
  }

  /** Walking the cascade through the offered options (cloth, then
      thickness, then colour) always ends on a selected row with exactly the
      chosen values, whatever was chosen before. */
  lemma CascadeSelects(cloths: seq<Cloth>, start: Choice, name: string, thickness: string, color: string)
    requires name != "" && thickness != "" && color != ""
    requires HasColor(cloths, name, thickness, color)
    ensures name in ClothNames(cloths)
    ensures thickness in ThicknessOptions(cloths, name)
    ensures color in ColorOptions(cloths, name, thickness)
    ensures var choice := ChooseColor(ChooseThickness(ChooseCloth(start, name), thickness), color);
      choice == Choice(name, thickness, color) && Selected(cloths, choice).Some?
      && Matches(Selected(cloths, choice).value, choice)
  {
    var i :| 0 <= i < |cloths| && Matches(cloths[i], Choice(name, thickness, color));
    assert HasThickness(cloths, name, thickness);
    assert HasName(cloths, name);
    SelectedIffOffered(cloths, Choice(name, thickness, color));
  }

  /** After a new cloth is picked, no earlier thickness or colour can take
      part in the lookup: only a row of that cloth whose thickness and colour
      are both empty text could be selected. */
  lemma ChooseClothForgetsDownstream(cloths: seq<Cloth>, choice: Choice, name: string)
    ensures var r := Selected(cloths, ChooseCloth(choice, name));
      r.Some? ==> r.value.clothName == Some(name) && r.value.thickness == Some("") && r.value.color == Some("")
    ensures ColorOptions(cloths, name, ChooseCloth(choice, name).thickness) == ColorOptions(cloths, name, "")
  {
  }
}

=== FILE: text.dfy ===
/** The string primitives the application relies on: `trim`, `split` on a
    literal separator, and removal of every double quote. */
module Text {
  import opened Wrappers

  /** The characters `String.prototype.trim` removes (the ASCII part of that set). */
  predicate IsSpace(c: char) {
    c == ' ' || c == '\t' || c == '\n' || c == '\r' || c == '\U{B}' || c == '\U{C}'
  }

  predicate AllSpace(s: string) {
    forall k :: 0 <= k < |s| ==> IsSpace(s[k])
  }

  /** Number of whitespace characters at the start of `s`. */
  function LeadingSpaces(s: string): (n: nat)
    ensures n <= |s|
    ensures forall k :: 0 <= k < n ==> IsSpace(s[k])
    ensures n < |s| ==> !IsSpace(s[n])
  {
    if |s| > 0 && IsSpace(s[0]) then 1 + LeadingSpaces(s[1..]) else 0
  }

  /** Number of whitespace characters at the end of `s`. */
  function TrailingSpaces(s: string): (n: nat)
    ensures n <= |s|
    ensures forall k :: |s| - n <= k < |s| ==> IsSpace(s[k])
    ensures n < |s| ==> !IsSpace(s[|s| - n - 1])
  {
    if |s| > 0 && IsSpace(s[|s| - 1]) then 1 + TrailingSpaces(s[..|s| - 1]) else 0
  }

  /** `s.trim()`: the slice of `s` between its leading and trailing whitespace. */
  function Trim(s: string): (r: string)
    ensures |r| <= |s|
    ensures r == "" || (!IsSpace(r[0]) && !IsSpace(r[|r| - 1]))
    ensures exists i :: 0 <= i <= |s| - |r| && r == s[i..i + |r|]
              && AllSpace(s[..i]) && AllSpace(s[i + |r|..])
  {
    var a := LeadingSpaces(s);
    var b := TrailingSpaces(s[a..]);
    TrailingInWhole(s, a, b);
    TrimParts(s, a, b);
    s[a..][..|s| - a - b]
  }

  /** The trailing whitespace of `s[a..]`, in positions of `s`. */
  lemma TrailingInWhole(s: string, a: nat, b: nat)
    requires a <= |s| && b == TrailingSpaces(s[a..])
    ensures a + b <= |s|
    ensures forall k :: |s| - b <= k < |s| ==> IsSpace(s[k])
    ensures a + b < |s| ==> !IsSpace(s[|s| - b - 1])
  {
    var t := s[a..];
    forall k | |s| - b <= k < |s| ensures IsSpace(s[k]) {
      assert s[k] == t[k - a];
    }
    if b < |t| {
      assert t[|t| - b - 1] == s[|s| - b - 1];
    }
  }

  /** The middle left once `a` leading and `b` trailing whitespace characters are cut. */
  lemma TrimParts(s: string, a: nat, b: nat)
    requires a + b <= |s|
    requires forall k :: 0 <= k < a ==> IsSpace(s[k])
    requires a < |s| ==> !IsSpace(s[a])
    requires forall k :: |s| - b <= k < |s| ==> IsSpace(s[k])
    requires a + b < |s| ==> !IsSpace(s[|s| - b - 1])
    ensures var r := s[a..][..|s| - a - b];
      && r == s[a..a + |r|] && AllSpace(s[..a]) && AllSpace(s[a + |r|..])
      && (r == "" || (!IsSpace(r[0]) && !IsSpace(r[|r| - 1])))
  {
    var r := s[a..][..|s| - a - b];
    assert r == s[a..a + |r|];
    PrefixSpace(s, a);
    SuffixSpace(s, |s| - b);
    MiddleEnds(s, a, b);
  }

  lemma PrefixSpace(s: string, n: nat)
    requires n <= |s| && forall k :: 0 <= k < n ==> IsSpace(s[k])
    ensures AllSpace(s[..n])
  {
    assert forall k :: 0 <= k < n ==> s[..n][k] == s[k];
  }

  lemma SuffixSpace(s: string, n: nat)
    requires n <= |s| && forall k :: n <= k < |s| ==> IsSpace(s[k])
    ensures AllSpace(s[n..])
  {
    assert forall k :: 0 <= k < |s| - n ==> s[n..][k] == s[n + k];
  }

  /** The middle neither starts nor ends with whitespace when the characters
      just inside the cuts are not whitespace. */
  lemma MiddleEnds(s: string, a: nat, b: nat)
    requires a + b <= |s|
    requires a < |s| ==> !IsSpace(s[a])
    requires a + b < |s| ==> !IsSpace(s[|s| - b - 1])
    ensures var r := s[a..][..|s| - a - b]; r == "" || (!IsSpace(r[0]) && !IsSpace(r[|r| - 1]))
  {
    var r := s[a..][..|s| - a - b];
    if r != "" {
      assert r[0] == s[a] && r[|r| - 1] == s[|s| - b - 1];
    }
  }

  /** A string trims to nothing exactly when it is all whitespace. */
  lemma TrimEmptyIffAllSpace(s: string)
    ensures Trim(s) == "" <==> AllSpace(s)
  {
    var r := Trim(s);
    if r == "" {
      var i :| 0 <= i <= |s| && AllSpace(s[..i]) && AllSpace(s[i..]);
      forall k | 0 <= k < |s| ensures IsSpace(s[k]) {
        if k < i { assert s[k] == s[..i][k]; } else { assert s[k] == s[i..][k - i]; }
      }
    }
  }

  /** A string with no whitespace at either end is its own trim. */
  lemma TrimOfTrimmed(s: string)
    requires s == "" || (!IsSpace(s[0]) && !IsSpace(s[|s| - 1]))
    ensures Trim(s) == s
  {
    assert LeadingSpaces(s) == 0;
    assert s[0..] == s;
    assert TrailingSpaces(s) == 0;
    assert s[..|s|] == s;
  }

  /** Trimming twice is trimming once. */
  lemma TrimIdempotent(s: string)
    ensures Trim(Trim(s)) == Trim(s)
  {
    TrimOfTrimmed(Trim(s));
  }

  // ---------------------------------------------------------------------
  // Splitting on a literal separator, as `String.prototype.split` does.
  // ---------------------------------------------------------------------

  /** `sep` occurs in `s` starting at position `k`. */
  predicate OccursAt(s: string, sep: string, k: int) {
    0 <= k && k + |sep| <= |s| && s[k..k + |sep|] == sep
  }

  /** `sep` does not occur anywhere in `s`. */
  predicate Free(s: string, sep: string) {
    forall k :: 0 <= k <= |s| - |sep| ==> !OccursAt(s, sep, k)
  }

  /** Position of the first occurrence of `sep` in `s` at or after `from`. */
  function Find(s: string, sep: string, from: nat): (r: Option<nat>)
    requires |sep| > 0 && from <= |s|
    ensures r.Some? ==> from <= r.value && OccursAt(s, sep, r.value)
    ensures r.Some? ==> forall k :: from <= k < r.value ==> !OccursAt(s, sep, k)
    ensures r.None? ==> forall k :: from <= k <= |s| - |sep| ==> !OccursAt(s, sep, k)
    decreases |s| - from
  {
    if from + |sep| > |s| then None
    else if s[from..from + |sep|] == sep then Some(from)
    else Find(s, sep, from + 1)
  }

  /** Glue `parts` back together with `sep` between neighbours. */
  function Join(parts: seq<string>, sep: string): string
    requires |parts| >= 1
  {
    if |parts| == 1 then parts[0] else parts[0] + sep + Join(parts[1..], sep)
  }

  /** `s.split(sep)`: the pieces between successive left-to-right,
      non-overlapping occurrences of `sep`. */
  function Split(s: string, sep: string): (parts: seq<string>)
    requires |sep| > 0
    ensures |parts| >= 1
    decreases |s|
  {
    match Find(s, sep, 0)
    case None => [s]
    case Some(k) => [s[..k]] + Split(s[k + |sep|..], sep)
  }

  /** Joining the pieces with the separator gives back the string. */
  lemma {:induction false} SplitJoin(s: string, sep: string)
    requires |sep| > 0
    ensures Join(Split(s, sep), sep) == s
    decreases |s|
  {
    var f := Find(s, sep, 0);
    if f.Some? {
      var k := f.value;
      var rest := s[k + |sep|..];
      assert Split(s, sep) == [s[..k]] + Split(rest, sep);
      SplitJoin(rest, sep);
      JoinCons(s[..k], Split(rest, sep), sep);
      assert s == s[..k] + sep + rest;
    }
  }

  lemma JoinCons(a: string, r: seq<string>, sep: string)
    requires |r| >= 1
    ensures Join([a] + r, sep) == a + sep + Join(r, sep)
  {
    assert ([a] + r)[1..] == r;
  }

  /** A piece without the character `c`, then `c`, splits off as one piece. */
  lemma SplitAfterCharFree(v: string, rest: string, c: char)
    requires c !in v
    ensures Split(v + [c] + rest, [c]) == [v] + Split(rest, [c])
  {
    var s := v + [c] + rest;
    forall k | 0 <= k < |v| ensures !OccursAt(s, [c], k) {
      assert s[k..k + 1][0] == s[k] == v[k];
    }
    assert s[|v|..|v| + 1] == [c];
    assert s[..|v|] == v && s[|v| + 1..] == rest;
    SplitAtFirstNamed(s, [c], |v|, v, rest);
  }

  /** Pieces without the character `c`, joined by `c`, split back into those pieces. */
  lemma {:induction false} SplitJoinedChar(parts: seq<string>, c: char)
    requires |parts| >= 1
    requires forall i :: 0 <= i < |parts| ==> c !in parts[i]
    ensures Split(Join(parts, [c]), [c]) == parts
    decreases |parts|
  {
    var v := parts[0];
    if |parts| == 1 {
      forall k | 0 <= k <= |v| - 1 ensures !OccursAt(v, [c], k) {
        assert v[k..k + 1][0] == v[k];
      }
      SplitFree(v, [c]);
    } else {
      var tail := parts[1..];
      assert Join(parts, [c]) == v + [c] + Join(tail, [c]);
      SplitAfterCharFree(v, Join(tail, [c]), c);
      SplitJoinedChar(tail, c);
      assert parts == [v] + tail;
    }
  }

  /** No piece contains the separator. */
  lemma {:induction false} SplitPiecesFree(s: string, sep: string)
    requires |sep| > 0
    ensures forall i :: 0 <= i < |Split(s, sep)| ==> Free(Split(s, sep)[i], sep)
    decreases |s|
  {
    var f := Find(s, sep, 0);
    if f.Some? {
      var k := f.value;
      var head := s[..k];
      var rest := s[k + |sep|..];
      assert Split(s, sep) == [head] + Split(rest, sep);
      forall j | 0 <= j <= |head| - |sep|
        ensures !OccursAt(head, sep, j)
      {
        OccursInPrefix(s, sep, k, j);
      }
      SplitPiecesFree(rest, sep);
    }
  }

  /** An occurrence inside a prefix is an occurrence in the whole string. */
  lemma OccursInPrefix(s: string, sep: string, n: nat, j: int)
    requires n <= |s|
    ensures OccursAt(s[..n], sep, j) ==> OccursAt(s, sep, j)
  {
    if OccursAt(s[..n], sep, j) {
      forall m | 0 <= m < |sep| ensures s[j..j + |sep|][m] == sep[m] {
        assert s[..n][j..j + |sep|][m] == sep[m];
        assert s[..n][j + m] == s[j + m];
      }
      assert s[j..j + |sep|] == sep;
    }
  }

  /** Splitting at the first occurrence, at `p`, of the separator. */
  lemma SplitAtFirst(s: string, sep: string, p: nat)
    requires |sep| > 0
    requires OccursAt(s, sep, p)
    requires forall k :: 0 <= k < p ==> !OccursAt(s, sep, k)
    ensures Split(s, sep) == [s[..p]] + Split(s[p + |sep|..], sep)
  {
    FindFrom(s, sep, 0, p);
  }

  /** The search from `from` stops at `p` when that is the first occurrence from there on. */
  lemma {:induction false} FindFrom(s: string, sep: string, from: nat, p: nat)
    requires |sep| > 0 && from <= p
    requires OccursAt(s, sep, p)
    requires forall k :: from <= k < p ==> !OccursAt(s, sep, k)
    ensures Find(s, sep, from) == Some(p)
    decreases p - from
  {
    if from < p {
      assert !OccursAt(s, sep, from);
      FindFrom(s, sep, from + 1, p);
    }
  }

  /** A string free of the separator splits into itself. */
  lemma SplitFree(s: string, sep: string)
    requires |sep| > 0
    requires Free(s, sep)
    ensures Split(s, sep) == [s]
  {
    assert Find(s, sep, 0) == None;
  }

  /** An occurrence after a leading character is an occurrence in the rest, one place on. */
  lemma OccursShifted(c: char, tail: string, sep: string, k: nat)
    ensures OccursAt([c] + tail, sep, k + 1) <==> OccursAt(tail, sep, k)
  {
    if k + |sep| <= |tail| {
      assert ([c] + tail)[k + 1..k + 1 + |sep|] == tail[k..k + |sep|];
    }
  }

  lemma LeadingCharNoSeparator(c: char, tail: string, sep: string)
    requires |sep| > 0
    requires !OccursAt([c] + tail, sep, 0)
    requires Find(tail, sep, 0).None?
    ensures Split([c] + tail, sep) == [[c] + tail] && Split(tail, sep) == [tail]
  {
    var s := [c] + tail;
    forall k | 0 <= k <= |s| - |sep| ensures !OccursAt(s, sep, k) {
      if k > 0 { OccursShifted(c, tail, sep, k - 1); }
    }
    SplitFree(s, sep);
    SplitFree(tail, sep);
  }

  lemma LeadingCharThenSeparator(c: char, tail: string, sep: string, p: nat)
    requires |sep| > 0
    requires !OccursAt([c] + tail, sep, 0)
    requires Find(tail, sep, 0) == Some(p)
    ensures Split([c] + tail, sep) == [[c] + Split(tail, sep)[0]] + Split(tail, sep)[1..]
  {
    var s := [c] + tail;
    FirstOccurrenceShifted(c, tail, sep, p);
    assert s[1..] == tail;
    SplitShift(s, tail, sep, p);
  }

  /** The first occurrence in `tail` at `p` is the first in `[c] + tail`, at `p + 1`,
      when none starts at `c`. */
  lemma FirstOccurrenceShifted(c: char, tail: string, sep: string, p: nat)
    requires !OccursAt([c] + tail, sep, 0)
    requires OccursAt(tail, sep, p) && forall k :: 0 <= k < p ==> !OccursAt(tail, sep, k)
    ensures OccursAt([c] + tail, sep, p + 1)
    ensures forall k :: 0 <= k < p + 1 ==> !OccursAt([c] + tail, sep, k)
  {
    forall k | 0 <= k < p + 1 ensures !OccursAt([c] + tail, sep, k) {
      if k > 0 { OccursShifted(c, tail, sep, k - 1); }
    }
    OccursShifted(c, tail, sep, p);
  }

  /** Joins the splits of `s` and of its tail at matching first occurrences. */
  lemma SplitShift(s: string, tail: string, sep: string, p: nat)
    requires |sep| > 0 && |s| == |tail| + 1 && s[1..] == tail
    requires OccursAt(s, sep, p + 1) && forall k :: 0 <= k < p + 1 ==> !OccursAt(s, sep, k)
    requires OccursAt(tail, sep, p) && forall k :: 0 <= k < p ==> !OccursAt(tail, sep, k)
    ensures Split(s, sep) == [[s[0]] + Split(tail, sep)[0]] + Split(tail, sep)[1..]
  {
    var rest := tail[p + |sep|..];
    ConsSlices(s, tail, p, |sep|);
    SplitAtFirstNamed(s, sep, p + 1, [s[0]] + tail[..p], rest);
    SplitAtFirstNamed(tail, sep, p, tail[..p], rest);
    Regroup(Split(s, sep), Split(tail, sep), [s[0]] + tail[..p], Split(rest, sep),
            tail[..p], Split(rest, sep), s[0]);
  }

  /** `SplitAtFirst` with the first piece and the remainder given by name. */
  lemma SplitAtFirstNamed(s: string, sep: string, p: nat, first: string, rest: string)
    requires |sep| > 0
    requires OccursAt(s, sep, p) && forall k :: 0 <= k < p ==> !OccursAt(s, sep, k)
    requires first == s[..p] && rest == s[p + |sep|..]
    ensures Split(s, sep) == [first] + Split(rest, sep)
  {
    SplitAtFirst(s, sep, p);
  }

  /** Slices of a string in terms of the slices of its tail. */
  lemma ConsSlices(s: string, tail: string, p: nat, m: nat)
    requires |s| == |tail| + 1 && s[1..] == tail && p + m <= |tail|
    ensures s[..p + 1] == [s[0]] + tail[..p] && s[p + 1 + m..] == tail[p + m..]
  {
  }

  /** A list whose first piece is `c` prepended to another list's first piece. */
  lemma Regroup<T>(a: seq<seq<T>>, b: seq<seq<T>>, a0: seq<T>, aRest: seq<seq<T>>,
                   b0: seq<T>, bRest: seq<seq<T>>, c: T)
    requires a == [a0] + aRest && b == [b0] + bRest
    requires a0 == [c] + b0 && aRest == bRest
    ensures a == [[c] + b[0]] + b[1..]
  {
    assert b[0] == b0 && b[1..] == bRest;
  }

  /** Putting a character in front of a string only lengthens the first piece,
      when no separator starts at that character. */
  lemma SplitAfterLeadingChar(c: char, tail: string, sep: string)
    requires |sep| > 0
    requires !OccursAt([c] + tail, sep, 0)
    ensures Split([c] + tail, sep) == [[c] + Split(tail, sep)[0]] + Split(tail, sep)[1..]
  {
    var f := Find(tail, sep, 0);
    if f.None? {
      LeadingCharNoSeparator(c, tail, sep);
    } else {
      LeadingCharThenSeparator(c, tail, sep, f.value);
    }
  }

  /** Number of occurrences of character `c` in `s`. */
  function Count(s: string, c: char): nat
  {
    if |s| == 0 then 0 else (if s[0] == c then 1 else 0) + Count(s[1..], c)
  }

  lemma CountAppend(a: string, b: string, c: char)
    ensures Count(a + b, c) == Count(a, c) + Count(b, c)
  {
    if |a| > 0 {
      assert (a + b)[1..] == a[1..] + b;
      CountAppend(a[1..], b, c);
    } else {
      assert a + b == b;
    }
  }

  lemma CountFree(s: string, c: char)
    requires Free(s, [c])
    ensures Count(s, c) == 0
  {
    forall k | 0 <= k < |s| ensures s[k] != c {
      assert !OccursAt(s, [c], k);
      assert s[k..k + 1] == [s[k]];
    }
    CountAbsent(s, c);
  }

  lemma {:induction false} CountAbsent(s: string, c: char)
    requires forall k :: 0 <= k < |s| ==> s[k] != c
    ensures Count(s, c) == 0
    decreases |s|
  {
    if |s| > 0 {
      assert forall k :: 0 <= k < |s[1..]| ==> s[1..][k] == s[k + 1];
      CountAbsent(s[1..], c);
    }
  }

  lemma {:induction false} CountJoin(parts: seq<string>, c: char)
    requires |parts| >= 1
    requires forall i :: 0 <= i < |parts| ==> Free(parts[i], [c])
    ensures Count(Join(parts, [c]), c) == |parts| - 1
  {
    CountFree(parts[0], c);
    if |parts| > 1 {
      CountJoin(parts[1..], c);
      CountAppend(parts[0] + [c], Join(parts[1..], [c]), c);
      CountAppend(parts[0], [c], c);
    }
  }

  /** Splitting on one character yields one piece more than there are
      occurrences of that character. */
  lemma SplitCharCount(s: string, c: char)
    ensures |Split(s, [c])| == Count(s, c) + 1
  {
    SplitJoin(s, [c]);
    SplitPiecesFree(s, [c]);
    CountJoin(Split(s, [c]), c);
  }

  // ---------------------------------------------------------------------
  // `s.replace(/"/g, "")`
  // ---------------------------------------------------------------------

  /** Drop every double-quote character, keeping the rest in order. */
  function StripQuotes(s: string): (r: string)
    ensures '"' !in r
    ensures forall c :: c in r <==> c in s && c != '"'
    ensures |r| == |s| - Count(s, '"')
  {
    if |s| == 0 then ""
    else if s[0] == '"' then StripQuotes(s[1..])
    else [s[0]] + StripQuotes(s[1..])
  }

  /** A string with no quote survives quote removal intact. */
  lemma {:induction false} StripQuotesIdentity(s: string)
    requires '"' !in s
    ensures StripQuotes(s) == s
  {
    if |s| > 0 {
      assert s[0] in s;
      assert forall c :: c in s[1..] ==> c in s;
      StripQuotesIdentity(s[1..]);
      assert s == [s[0]] + s[1..];
    }
  }
}

=== FILE: wrappers.dfy ===
/** Optional values and fallible results shared by every module of the model. */
module Wrappers {

  /** A value that may be absent; JavaScript's `undefined` is `None`. */
  datatype Option<+T> = None | Some(value: T)

  /** The outcome of an operation that either produces a value or reports why it refused. */
  datatype Result<+T, +E> = Ok(value: T) | Err(error: E)

  /** A JSON response body as the screens test it with `Array.isArray`. */
  datatype Fetched<+T> = JsonArray(items: seq<T>) | NotAnArray {

    /** `Array.isArray(data) ? data : []` */
    function ItemsOrEmpty(): (r: seq<T>)
      ensures JsonArray? ==> r == items
      ensures NotAnArray? ==> r == []
    {
      if JsonArray? then items else []
    }
  }
}
